=== FILE: README.md ===
# candidate-search-backend, modelled in Dafny

The model covers the decision logic of a recruiting backend:

- **Job queue** (`job_queue.dfy`, `job_queue_properties.dfy`). This is the durable SQLite queue of `src/services/sqliteQueue.js`. The `jobs` table is a map from id to row, plus the AUTOINCREMENT counter. Each prepared statement is a pure function over the table: `add`, `getJob`, `completeJob`, `failJob`, `getNextReadyJob` and `getPendingJobs`. The clock reading becomes the parameter `now`.
- **Candidate upload** (`candidate_upload.dfy`). This is the `uploadCandidates` handler. For each résumé in turn it:
  - checks that the file is a PDF;
  - reads the text and asks the language model for a candidate record;
  - strips markdown fences from the reply and parses it;
  - checks the six required fields;
  - fills in the four optional ones;
  - embeds the summary and stores the record;
  - builds the reply entry `{ id: email, ...record }`.

  The first file that fails ends the request, and the files before it stay stored.
- **Search** (`search.dfy`) and **job listing** (`job_listing.dfy`). These are the `searchCandidatesHandler` and `matchJobListing` handlers. Both share the ranking step in `ranking.dfy` and `ranking_properties.dfy`:
  - the candidate view sent to the model;
  - the handling of the model's grading reply;
  - the stable sort by score;
  - the cut to `limit`, which only the search applies;
  - the join with the stored candidates, without their embedding.
- **Search query** (`graph_query.dfy`). This is the Cypher text and parameter map that `searchCandidates` builds from a filter object.
- **Shared pieces.** `common.dfy` holds the shared vocabulary:
  - JavaScript values and truthiness;
  - the tagged outcomes of the model service (`Ok`, `RateLimited(retryAfter)`, `Err`) and of the graph store;
  - HTTP responses.

  `text.dfy` holds the string operations: the global fence replace, `String.prototype.trim` and `Array.prototype.join`.

External services are parameters. These are the language model, the embedding service, the PDF reader, JSON.parse of model replies, and the graph store reads and writes. Each is a total function from what the handler passes it to a tagged outcome. Numbers are unbounded integers.

Where the code and its description disagree, the model follows the code:

- A failed job whose `retryAfter` is NULL is ready again at once, not failed for good.
- `active` is admitted by the schema, but no statement writes it.
- `getPendingJobs` has no ORDER BY. The model lists the ready rows in ascending id order, and its contract states the exact set.
- The job-listing reply is not cut to `limit`.

## Model

| member | source | states |
|---|---|---|
| JobQueue.EmptyStore | src/services/sqliteQueue.js:11-20 | the table as created is empty and satisfies the id invariant |
| JobQueue.Add | src/services/sqliteQueue.js:43-46 | the insert fails exactly when the counter is at 2^63-1. Otherwise the new id is the counter plus one, absent from the table and above every existing id; the counter moves to it; the new row is pending with the given data (null for `undefined`), no result and no retryAfter |
| JobQueue.GetJob | src/services/sqliteQueue.js:51-58 | a row is returned exactly when one has that id, and it is that row |
| JobQueue.Update | src/services/sqliteQueue.js:25 | only the row with the given id changes, and only its status, result and retryAfter; an absent id leaves the table unchanged |
| JobQueue.CompleteJob | src/services/sqliteQueue.js:63-65 | afterwards `getJob(id)` is completed with the result, NULL retryAfter and the old data; every other id reads the same as before |
| JobQueue.ErrorPayload | src/services/sqliteQueue.js:72 | the stored `{ error: error.message }` has an `error` key exactly when the message is not undefined |
| JobQueue.FailJob | src/services/sqliteQueue.js:70-76 | for an `error` that can be read, `getJob(id)` is afterwards failed with the payload `{ error: error.message }`, the given retryAfter (NULL by default) and the old data; a null or undefined `error` throws before the update and leaves the table as it was; every other id reads the same |
| JobQueue.NextReadyFrom | src/services/sqliteQueue.js:34-40 | the scan from id k finds the first ready row at or after k, or finds that none is ready |
| JobQueue.GetNextReadyJob | src/services/sqliteQueue.js:34-40 | nothing is returned exactly when no row is ready; otherwise the result is a ready row with the smallest id |
| JobQueue.ReadyFrom | src/services/sqliteQueue.js:26 | the collected rows are all ready, all at or after k, contain every ready row from k on, and are in ascending id order |
| JobQueue.GetPendingJobs | src/services/sqliteQueue.js:90-97 | a row is listed exactly when it is ready at `now`; rows are in ascending id order |
| JobQueueProperties.NextReadyIsFirstPending | src/services/sqliteQueue.js:26-40 | `getNextReadyJob` is the first row of `getPendingJobs`, and nothing exactly when that list is empty |
| JobQueueProperties.CompletedJobIsNeverSelected | src/services/sqliteQueue.js:63-65 | a completed row is never pending and never next |
| JobQueueProperties.FailedJobWaitsForRetryTime | src/services/sqliteQueue.js:70-72 | after a `failJob` that does not throw, a row failed with retry time t is pending exactly when t <= now |
| JobQueueProperties.FailedJobWithoutRetryTimeIsReady | src/services/sqliteQueue.js:70-72 | after a `failJob` that does not throw, a row failed without a retry time is pending at every time, and the next ready row has an id no larger than it |
| JobQueueProperties.ReadinessIsMonotoneInTime | src/services/sqliteQueue.js:26 | a row pending at one time is pending at every later time |
| JobQueueProperties.ActiveIsNeverWritten | src/services/sqliteQueue.js:15-25 | insert, complete and fail keep a table without `active` rows free of them |
| JobQueueProperties.CompleteJobLastWriteWins | src/services/sqliteQueue.js:63-65 | of two completions of the same id the last one wins |
| JobQueueProperties.ConsecutiveAddsIncrease | src/services/sqliteQueue.js:43-46 | two inserts get consecutive ids, and the second leaves the first row as inserted |
| JobQueueProperties.AddedDataReadsBack | src/services/sqliteQueue.js:43-58 | after an insert, `getJob` of the new id reads back the payload as given (null for `undefined`), pending, with no result and no retry time |
| JobQueueProperties.CompletedResultReadsBack | src/services/sqliteQueue.js:51-65 | after a completion, `getJob` reads back the result as given, and no result for `undefined`, whose JSON text is stored as NULL |
| JobQueueProperties.ApplyWrites | src/services/sqliteQueue.js:63-76 | any sequence of completions and failures keeps the id invariant, the counter and the set of ids |
| JobQueueProperties.IdsAreNeverReused | src/services/sqliteQueue.js:43-76 | after any sequence of completions and failures, an insert gets the id right after the last one handed out, an id no row has had |
| JobQueueProperties.ThreeJobStoreRows | src/services/sqliteQueue.js:43-72 | three inserts, a completion and two failures leave exactly the three expected rows |
| JobQueueProperties.ThreeJobRunAtOnce | src/services/sqliteQueue.js:26-40 | at once, the job failed without a retry time is the only pending job and the next one |
| JobQueueProperties.ThreeJobRunLater | src/services/sqliteQueue.js:26-40 | once its retry time has passed, the rate-limited job is pending again ahead of the later one, and the completed job is not |
| Text.StripFencesCopiesPlainRun | src/controllers/candidateController.js:78 | the fence replace copies a stretch without backticks unchanged |
| Text.StripFencesIdentity | src/controllers/candidateController.js:78 | a reply without backticks passes the fence replace unchanged |
| Text.StripFencesUnwraps | src/controllers/candidateController.js:78 | a reply wrapped in a JSON code fence is unwrapped to exactly its body |
| Text.StripFencesSinglePass | src/controllers/candidateController.js:78 | the global replace does not rescan, so a fence formed by a removal survives |
| Text.TrimStart | src/controllers/candidateController.js:78 | leading whitespace is dropped, and nothing else |
| Text.TrimEnd | src/controllers/candidateController.js:78 | trailing whitespace is dropped, and nothing else |
| Text.Trim | src/controllers/candidateController.js:78 | the result is an infix of the input with only whitespace around it, and neither of its ends is whitespace |
| Text.TrimIdempotent | src/controllers/candidateController.js:78 | trimming twice is trimming once |
| Text.CleanReplyUnwraps | src/controllers/candidateController.js:78-79 | a fenced reply is parsed from its trimmed body |
| Text.JoinWithAppend | src/controllers/searchController.js:26 | joining a concatenation puts one separator between the two joins |
| Ranking.SkillsText | src/controllers/searchController.js:26 | non-array skills pass through unchanged; an array of strings becomes its ", "-join |
| Ranking.PromptView | src/controllers/searchController.js:21-27 | the view holds exactly name, email, summary, experience and skills, copied except for the skills text |
| Ranking.CandidateViews | src/controllers/searchController.js:21-27 | one view per stored candidate, in store order, each the prompt view of its candidate (five keys, skills joined with ", ") |
| Ranking.InsertByScore | src/controllers/searchController.js:83 | inserting adds exactly one entry and keeps the order non-increasing |
| Ranking.SortByScore | src/controllers/searchController.js:83 | the result is a permutation of the input in non-increasing score order |
| Ranking.TakeTop | src/controllers/searchController.js:84 | `slice(0, limit)` is a prefix of length min(limit, n), or n + limit clamped at 0 for a negative limit |
| Ranking.Kept | src/controllers/searchController.js:83-84 | the entries looked up are ordered by score, are all of them when not cut, and are at most `limit` when cut |
| Ranking.Annotate | src/controllers/searchController.js:90-95 | the entry has no embedding, takes score and explanation from the grade, and keeps every other stored property |
| Ranking.LookupJoin | src/controllers/searchController.js:86-97 | the join fails exactly when some lookup throws, and has one entry per grade when every lookup finds its grade |
| Ranking.FoundFrom | src/controllers/searchController.js:87-89 | the indexes of the grades the lookup finds, all of them, in ascending order |
| Ranking.HandleGrading | src/controllers/searchController.js:61-103 | a rate limit gives 429 with its retryAfter; another error gives 500; an unparsable reply gives 500 "Failed to parse LLM response."; a non-array or an empty array gives 200 []; for a non-empty array, a lookup that throws gives 500, and otherwise the reply is 200 with the joined records of the kept entries |
| RankingProperties.SortIsStable | src/controllers/searchController.js:83 | the entries of each score keep their order from the model's reply |
| RankingProperties.OrderedAndStableIsUnique | src/controllers/searchController.js:83 | two score-ordered sequences that agree on each score's entries are equal |
| RankingProperties.SortIsTheStableSort | src/controllers/searchController.js:83 | any score-ordered arrangement that keeps each score's entries in order is the sort's result |
| RankingProperties.JoinFrom | src/controllers/searchController.js:86-97 | the join of a suffix lists the found entries of that suffix, each annotated, in order |
| RankingProperties.JoinKeepsFoundEntries | src/controllers/searchController.js:86-97 | entry k of the join is the annotated record of the k-th grade found |
| RankingProperties.JoinKeepsScoreOrder | src/controllers/searchController.js:83-97 | joined records carry a score, no embedding, and keep the score order of the grades |
| RankingProperties.JoinListsFound | src/controllers/searchController.js:86-97 | the join lists every found grade's annotated record, and nothing else |
| RankingProperties.GradingReplyIsOrderedAndCut | src/controllers/searchController.js:79-99 | a 200 grading reply lists records without embedding, ordered by score, at most `cut` of them |
| RankingProperties.GradingReplyListsFound | src/controllers/searchController.js:83-99 | a 200 reply to a non-empty grading is the join of the kept entries |
| RankingProperties.UncutKeepsEveryEntry | src/controllers/jobListingController.js:91 | without a cut, the entries looked up are exactly the graded entries, and as many |
| RankingProperties.UncutJoinListsAll | src/controllers/jobListingController.js:91-105 | without a cut, a join in which every lookup finds its grade has one record per grade |
| Search.SearchCandidates | src/controllers/searchController.js:6-104 | status 400 exactly when neither query nor filters is truthy; a store failure gives 500; an empty store gives 200 []. Past that, the reply is the handling of the grading of the prompt views with the limit: a rate limit gives 429 with its retryAfter, another model error gives 500, an unparsable reply gives 500 |
| Search.NoParametersConsultsNothing | src/controllers/searchController.js:11-15 | without query or filters the reply does not depend on the store, the model or the lookup |
| Search.SearchReplyIsRankedAndCut | src/controllers/searchController.js:83-99 | a 200 search reply lists records without embedding, ordered by score, at most `limit` of them |
| Search.SearchListsTopFound | src/controllers/searchController.js:83-97 | a 200 search reply lists exactly the found entries among the top `limit` by score |
| Search.SearchAsWritten | src/controllers/searchController.js:61-77 | the handler as written against the service's actual return value: no parameters gives 400, a store failure gives 500 |
| Search.SearchAsWrittenNeverRanks | src/controllers/searchController.js:61-77 | as written, every search that reaches the model ends in 500 "Failed to parse LLM response." |
| JobListing.MatchJobListing | src/controllers/jobListingController.js:6-112 | status 400 exactly when the description is falsy; an embedding rate limit gives 429 with its retryAfter, another embedding error 500; a store failure gives 500, an empty store 200 []. Past that, the reply is the uncut handling of the grading: a model rate limit gives 429, another model error gives 500, an unparsable reply gives 500 |
| JobListing.NoDescriptionConsultsNothing | src/controllers/jobListingController.js:10-12 | without a description the reply does not depend on any service |
| JobListing.ModelRateLimitIsReported | src/controllers/jobListingController.js:69-75 | a model rate limit gives 429 with the model's retryAfter |
| JobListing.MatchReplyIsRanked | src/controllers/jobListingController.js:91-107 | a 200 reply lists records without embedding, ordered by score |
| JobListing.MatchListsEveryFound | src/controllers/jobListingController.js:91-107 | a 200 reply lists every found grade's record, whatever `limit` is, and nothing else |
| JobListing.MatchListsAllWhenAllFound | src/controllers/jobListingController.js:91-107 | when the lookup finds every grade, a 200 reply has one record per grade, whatever `limit` is |
| JobListing.MatchAsWritten | src/controllers/jobListingController.js:14-20 | the handler as written against the services' actual return values: a falsy description gives 400, a rejected embedding gives 500 |
| JobListing.MatchAsWrittenNeverRanks | src/controllers/jobListingController.js:69-85 | as written, every match that reaches the model ends in 500 "Failed to parse LLM response." |
| CandidateUpload.FirstMissingFrom | src/controllers/candidateController.js:87-92 | the first of the checked fields from index i on that is falsy, and none exactly when all of them are truthy |
| CandidateUpload.FirstMissing | src/controllers/candidateController.js:87-92 | none exactly when every required field is truthy; otherwise the first falsy one in the order email, phone, name, summary, experience, skills |
| CandidateUpload.NonObjectMissesEmail | src/controllers/candidateController.js:87-92 | a parsed string, number, boolean or array is reported as missing its email |
| CandidateUpload.WithDefault | src/controllers/candidateController.js:95-98 | a truthy field is kept, a falsy or absent one gets the default, and other fields are unchanged |
| CandidateUpload.ApplyDefaults | src/controllers/candidateController.js:95-98 | education becomes "Not specified", certifications [], and linkedin and portfolio "" when falsy; truthy values and all other fields are unchanged |
| CandidateUpload.ApplyDefaultsIsFourAssignments | src/controllers/candidateController.js:95-98 | updating the four optional fields at once gives the same record as the four `d[key] = d[key] \|\| dflt` assignments run in order |
| CandidateUpload.DefaultsAreFixed | src/controllers/candidateController.js:95-98 | a record whose optional fields are all present and truthy, except that `linkedin` and `portfolio` may also be `""`, is unchanged by the defaults |
| CandidateUpload.ApplyDefaultsIdempotent | src/controllers/candidateController.js:95-98 | applying the defaults twice is applying them once |
| CandidateUpload.SameRequiredSameCheck | src/controllers/candidateController.js:87-92 | two values that agree on every checked field get the same check result |
| CandidateUpload.ApplyDefaultsKeepsRequired | src/controllers/candidateController.js:87-98 | the defaults do not change the outcome of the required-field check |
| CandidateUpload.Entry | src/controllers/candidateController.js:106-109 | the entry is the record plus `id`, which is the email unless the record has its own `id` |
| CandidateUpload.StoreParsed | src/controllers/candidateController.js:87-109 | a stored record is the parsed object with the defaults applied, passed the required check, has the embedding of its `summary` and was saved with it, and carries its entry; conversely, an object with every required field is stored with its defaults and embedding when the embedding succeeds and the write succeeds, and an embedding error or a failed write gives 500; a null or undefined parse result is a 500; a stop is 400 or 500 |
| CandidateUpload.ProcessFile | src/controllers/candidateController.js:36-109 | a non-PDF gives 400 "Only PDF files are allowed."; a failed text extraction or a failed or rate-limited completion gives 500; a reply that does not parse gives 500 with the parse-failure message; a parsed reply goes on to the required check, the defaults, the embedding and the write; a stored file passed the required check, has every optional field, and was saved; a stop is 400 or 500 |
| CandidateUpload.MissingFieldIsReported | src/controllers/candidateController.js:87-92 | a parsed record missing a required field stops with 400 "Missing field: <field>" |
| CandidateUpload.ProcessAll | src/controllers/candidateController.js:36-110 | files are processed in order up to the first stop; the files before it are stored, each with its entry; no stop happens exactly when every file goes through |
| CandidateUpload.UploadCandidates | src/controllers/candidateController.js:29-32 | a missing or empty file list gives 400 "No files uploaded." and stores nothing; otherwise the reply is the batch's stop, or 200 with its entries |
| CandidateUpload.AllFilesStored | src/controllers/candidateController.js:36-112 | when every file goes through, the reply has one entry per file, in order, each the stored record with its `id` |
| CandidateUpload.StopsAtFirstStop | src/controllers/candidateController.js:36-104 | for any per-file step, the loop ends with the reply of the first file that stops and has kept exactly the files before it |
| CandidateUpload.FirstStopDecides | src/controllers/candidateController.js:36-104 | the first file that stops the loop decides the reply, and exactly the files before it are stored |
| CandidateUpload.NonPdfStopsAfterEarlierStored | src/controllers/candidateController.js:36-40 | a non-PDF after files that went through gives 400 and leaves those files stored |
| GraphQuery.Conditions | src/services/graphDBService.js:105-115 | the experience condition is present exactly when `filters.experience` is truthy, and the skills condition exactly when `filters.skills` is non-empty |
| GraphQuery.BuildSearchQuery | src/services/graphDBService.js:101-124 | nothing is built exactly when the filters are null or undefined; the experience and skills parameters are present exactly when their conditions apply; limit defaults to 10 |
| GraphQuery.WhereClauseOf | src/services/graphDBService.js:117-121 | the WHERE clause for each combination of conditions |
| GraphQuery.QueryText | src/services/graphDBService.js:104-123 | the text is MATCH, then experience AND skills (or just one of them, or TRUE), then RETURN |
| GraphQuery.QueryIsFramed | src/services/graphDBService.js:104-123 | every query starts with the MATCH clause and ends with the RETURN clause |
| GraphQuery.TrueExactlyWithoutConditions | src/services/graphDBService.js:117-121 | the clause is TRUE exactly when no filter applies |
| GraphQuery.QueryTextDeterminesConditions | src/services/graphDBService.js:104-123 | two filter objects give the same text exactly when the same conditions apply |

## Left out

- I/O and framework wiring are outside the model: multer storage, `fs.unlinkSync` of a rejected upload, logging, configuration, routes and server start-up. An unlink that throws would turn the 400 for a non-PDF into a 500; the model does not cover that.
- `src/services/azureOpenAIService.js` (HTTP via axios) is not part of this model beyond the as-written findings below. Elsewhere the model service is a tagged outcome: `RateLimited` stands for the error string "Rate limited", and `Err` for any other non-empty error string.
- The model does not cover an empty-string error tag, which is falsy and so passes the handlers' `if (llmError)` check.
- The PDF reader (`pdfParserService.js`) and the Neo4j driver are parameters. So are `createOrUpdateCandidate`, `getAllCandidates` and `getCandidateByEmailOrPhone`: what they return, or that they throw. Their Cypher text is not modelled.
- `createOrUpdateCandidate` is a pure function of its arguments. The model does not cover a store whose writes change the outcome of later writes.
- The text of the prompts is left out. The language model sees only the criteria, the requested count and the candidate views. The extraction model sees the résumé text.
- JSON.parse of model replies is a parameter, and its result is abstracted. A grading reply is either not an array or an array of `{email, score, explanation}` entries with integer scores. The model does not cover array elements that are not objects, nor scores that are missing, non-numeric or fractional. JavaScript would compare those with NaN or floating-point arithmetic in the sort comparator.
- Queue payloads (`data`, `result`) are values that round-trip through JSON unchanged. Only top-level `undefined` is modelled. Nested `undefined`, functions and other values that JSON.stringify drops or changes are not.
- The queue leaves out `created_at`, `handleDbError` logging and rethrowing, database errors other than SQLITE_FULL, and the precision of `lastInsertRowid`. `now` is a parameter in place of `Math.floor(Date.now() / 1000)`.
- `parseFloat` of the experience filter and the `apoc.text.fuzzyMatch` semantics are left out. The experience parameter is the filter value itself, and the skills condition is opaque text.
- `neo4j.int(limit)` is the integer limit.
- Numbers are integers throughout. `IntToString` writes integers in plain decimal, so integers of 10^21 and above, which JavaScript prints in exponent form, are not covered.
- The request `limit` is an integer or absent. A `null`, string or fractional limit passed to `slice` or to the prompt is not modelled.
- Object key order in replies, such as `id` first in an upload entry, is not modelled. Records are maps.
- `HasItems`: a `length` property that is not a number counts as 0. JavaScript's `>` would convert it, so a numeric string, `true` or `[1]` would count as positive.
- `Ranking.HandleGrading`: the contract states every branch, the 200 with the joined records included. What that join holds (its score order, the cut, which graded entries survive) is stated separately by `RankingProperties.GradingReplyIsOrderedAndCut` and `GradingReplyListsFound`, not repeated here.
- `JobQueue.GetPendingJobs`: the SELECT has no ORDER BY, so SQLite fixes no order. The model lists rows in ascending id order, and `JobQueueProperties.NextReadyIsFirstPending` depends on that choice.

## Findings

| source | as written | input that shows it | evidently intended | confidence | as-written member | corrected member |
|---|---|---|---|---|---|---|
| src/controllers/searchController.js:61-77 | `getLLMResponse` resolves to the reply text, but the handler destructures `{ content, error, retryAfter }` from it, so `llmOutput` is `undefined` and `llmOutput.replace` throws inside the parse block | any search with a query, a non-empty store and any model reply | the reply text is cleaned, parsed, ranked, cut and joined; a "Rate limited" error gives 429 | high, not executed | Search.SearchAsWrittenNeverRanks | Search.SearchReplyIsRankedAndCut |
| src/controllers/jobListingController.js:14-85 | `getEmbeddings` resolves to the vector and `getLLMResponse` to the text, but both are destructured as `{ ..., error, retryAfter }` objects: no rate limit is ever seen and `llmOutput` is `undefined` | any description, a non-empty store and any model reply | rate limits give 429; the reply is parsed, ranked and joined | high, not executed | JobListing.MatchAsWrittenNeverRanks | JobListing.MatchListsEveryFound |

=== FILE: candidate_upload.dfy ===
/**
 The `uploadCandidates` handler of src/controllers/candidateController.js:
 each uploaded résumé, in order, is checked to be a PDF, read, turned into a
 candidate record by the language model, validated, completed with default
 values, embedded and stored. The first file that fails ends the request;
 the files before it stay stored.
 */
module CandidateUpload {
  import opened Common
  import opened Text

  /** What multer reports for one uploaded file. */
  datatype UploadedFile = UploadedFile(mimetype: string, path: string)

  /** The collaborators, each as a function of what the handler passes it:
      the PDF text of a stored upload (None when extraction throws), the
      language model's reply to the extraction prompt built around that
      text, JSON.parse of the cleaned reply (None when it throws), the
      embedding of a summary, and `createOrUpdateCandidate` (false when it
      throws). */
  datatype Services = Services(
    extract: string -> Option<string>,
    complete: string -> Outcome<string>,
    parse: string -> Option<Value>,
    embed: Value -> Outcome<Value>,
    save: (Record, Value) -> bool)

  const PdfType := "application/pdf"
  const NoFiles := "No files uploaded."
  const OnlyPdf := "Only PDF files are allowed."
  const ParseFailure := "Failed to parse candidate data."

  // ---------------------------------------------------------------------
  // Required fields.

  /** The fields every extracted candidate must carry, in checking order. */
  const RequiredFields: seq<string> := ["email", "phone", "name", "summary", "experience", "skills"]

  /** The first of `fields` from index `i` on that is falsy in `v`. */
  function FirstMissingFrom(v: Value, fields: seq<string>, i: nat): (r: Option<string>)
    requires i <= |fields|
    ensures r.None? <==> forall j :: i <= j < |fields| ==> Truthy(Member(v, fields[j]))
    ensures r.Some? ==> exists j :: (
      && i <= j < |fields| && r.value == fields[j]
      && !Truthy(Member(v, fields[j]))
      && forall l :: i <= l < j ==> Truthy(Member(v, fields[l])))
    decreases |fields| - i
  {
    if i == |fields| then None
    else if !Truthy(Member(v, fields[i])) then Some(fields[i])
    else FirstMissingFrom(v, fields, i + 1)
  }

  /** The loop over the required fields: the first falsy one, if any. */
  function FirstMissing(v: Value): (r: Option<string>)
    ensures r.None? <==> forall f :: f in RequiredFields ==> Truthy(Member(v, f))
    ensures r.Some? ==> exists j :: (
      && 0 <= j < |RequiredFields| && r.value == RequiredFields[j]
      && !Truthy(Member(v, RequiredFields[j]))
      && forall l :: 0 <= l < j ==> Truthy(Member(v, RequiredFields[l])))
  {
    FirstMissingFrom(v, RequiredFields, 0)
  }

  /** Only an object can have a truthy `email`: a parsed string, number,
      boolean or array is reported as missing its email. (Reading a field
      of null throws instead, which `StoreParsed` answers with 500.) */
  lemma NonObjectMissesEmail(v: Value)
    requires Readable(v) && !v.Obj?
    ensures FirstMissing(v) == Some("email")
  {
  }

  // ---------------------------------------------------------------------
  // Optional fields.

  /** `d[key] = d[key] || dflt`. */
  function WithDefault(d: Record, key: string, dflt: Value): (r: Record)
    ensures r.Keys == d.Keys + {key}
    ensures Truthy(Get(d, key)) ==> r[key] == d[key]
    ensures !Truthy(Get(d, key)) ==> r[key] == dflt
    ensures forall k :: k in d && k != key ==> r[k] == d[k]
  {
    d[key := if Truthy(Get(d, key)) then d[key] else dflt]
  }

  const OptionalFields := {"education", "certifications", "linkedin", "portfolio"}

  /** The four optional fields set to themselves when truthy and otherwise
      to "Not specified", `[]`, `""` and `""`; every other field as it was. */
  function ApplyDefaults(d: Record): (r: Record)
    ensures forall k :: k in r <==> k in d || k in OptionalFields
    ensures forall k :: k in d && k !in OptionalFields ==> r[k] == d[k]
    ensures r["education"] == if Truthy(Get(d, "education")) then d["education"] else Str("Not specified")
    ensures r["certifications"] == if Truthy(Get(d, "certifications")) then d["certifications"] else Arr([])
    ensures r["linkedin"] == if Truthy(Get(d, "linkedin")) then d["linkedin"] else Str("")
    ensures r["portfolio"] == if Truthy(Get(d, "portfolio")) then d["portfolio"] else Str("")
  {
    d["education" := if Truthy(Get(d, "education")) then d["education"] else Str("Not specified")]
     ["certifications" := if Truthy(Get(d, "certifications")) then d["certifications"] else Arr([])]
     ["linkedin" := if Truthy(Get(d, "linkedin")) then d["linkedin"] else Str("")]
     ["portfolio" := if Truthy(Get(d, "portfolio")) then d["portfolio"] else Str("")]
  }

  /** The defaults are the four assignments run one after the other: each
      reads only its own field, so running them in sequence gives the same
      record as updating the four fields together. */
  lemma ApplyDefaultsIsFourAssignments(d: Record)
    ensures ApplyDefaults(d) ==
      WithDefault(WithDefault(WithDefault(WithDefault(d, "education", Str("Not specified")),
        "certifications", Arr([])), "linkedin", Str("")), "portfolio", Str(""))
  {
  }

  /** A record whose optional fields already hold truthy values, or the
      empty string where that is the default, is left as it is. */
  lemma DefaultsAreFixed(r: Record)
    requires "education" in r && Truthy(r["education"])
    requires "certifications" in r && Truthy(r["certifications"])
    requires "linkedin" in r && (Truthy(r["linkedin"]) || r["linkedin"] == Str(""))
    requires "portfolio" in r && (Truthy(r["portfolio"]) || r["portfolio"] == Str(""))
    ensures ApplyDefaults(r) == r
  {
    var rr := ApplyDefaults(r);
    assert rr.Keys == r.Keys;
    forall k | k in r
      ensures rr[k] == r[k]
    {
      if k == "education" {
      } else if k == "certifications" {
      } else if k == "linkedin" {
      } else if k == "portfolio" {
      } else {
        assert k !in OptionalFields;
      }
    }
  }

  /** Applying the defaults twice is applying them once: a default is either
      truthy or the empty string, which is its own default. */
  lemma ApplyDefaultsIdempotent(d: Record)
    ensures ApplyDefaults(ApplyDefaults(d)) == ApplyDefaults(d)
  {
    DefaultsAreFixed(ApplyDefaults(d));
  }

  /** No required field is optional. */
  lemma RequiredAreNotOptional()
    ensures forall f :: f in RequiredFields ==> f !in OptionalFields
  {
  }

  /** The defaults do not touch the required fields, so the validation
      result stays the same. */
  lemma ApplyDefaultsKeepsRequired(d: Record)
    ensures FirstMissing(Obj(ApplyDefaults(d))) == FirstMissing(Obj(d))
  {
    var r := ApplyDefaults(d);
    RequiredAreNotOptional();
    forall f | f in RequiredFields
      ensures Member(Obj(r), f) == Member(Obj(d), f)
    {
      assert f in r <==> f in d;
    }
    SameRequiredSameCheck(Obj(r), Obj(d), RequiredFields, 0);
  }

  /** Values that agree on every field checked get the same check result. */
  lemma {:induction false} SameRequiredSameCheck(a: Value, b: Value, fields: seq<string>, i: nat)
    requires i <= |fields|
    requires forall f :: f in fields ==> Member(a, f) == Member(b, f)
    ensures FirstMissingFrom(a, fields, i) == FirstMissingFrom(b, fields, i)
    decreases |fields| - i
  {
    if i < |fields| {
      assert Member(a, fields[i]) == Member(b, fields[i]);
      SameRequiredSameCheck(a, b, fields, i + 1);
    }
  }

  // ---------------------------------------------------------------------
  // Response entries.

  /** `{ id: candidateData.email, ...candidateData }`: the spread comes last,
      so an `id` of the record's own wins over the email. */
  function Entry(d: Record): (e: Record)
    ensures e.Keys == d.Keys + {"id"}
    ensures e["id"] == if "id" in d then d["id"] else Get(d, "email")
    ensures forall k :: k in d ==> e[k] == d[k]
  {
    map["id" := Get(d, "email")] + d
  }

  // ---------------------------------------------------------------------
  // One file.

  /** What processing one file ends in: its record stored with its embedding
      and the entry for the reply, or the reply that ends the request. */
  datatype FileOutcome = Stored(record: Record, embedding: Value, entry: Record) | Stopped(response: Response)

  /** What happens to one parsed reply: the required-field check, the
      defaults, the embedding of the summary and the write. */
  function StoreParsed(candidate: Value, env: Services): (r: FileOutcome)
    ensures !Readable(candidate) ==> r == Stopped(InternalError)
    ensures r.Stopped? ==> r.response.status == 400 || r.response.status == 500
    ensures r.Stored? ==>
      && FirstMissing(Obj(r.record)) == None
      && (forall k :: k in OptionalFields ==> k in r.record)
      && r.entry == Entry(r.record)
      && env.save(r.record, r.embedding)
    ensures r.Stored? ==>
      && candidate.Obj?
      && r.record == ApplyDefaults(candidate.fields)
      && env.embed(Get(r.record, "summary")) == Ok(r.embedding)
    ensures candidate.Obj? && FirstMissing(candidate).None? ==>
      var d := ApplyDefaults(candidate.fields);
      var embedded := env.embed(Get(d, "summary"));
      && (!embedded.Ok? ==> r == Stopped(InternalError))
      && (embedded.Ok? && env.save(d, embedded.value) ==> r == Stored(d, embedded.value, Entry(d)))
      && (embedded.Ok? && !env.save(d, embedded.value) ==> r == Stopped(InternalError))
  {
    if !Readable(candidate) then Stopped(InternalError)
    else
      match FirstMissing(candidate)
      case Some(field) => Stopped(Response(400, Message("Missing field: " + field)))
      case None =>
        var d := ApplyDefaults(candidate.fields);
        ApplyDefaultsKeepsRequired(candidate.fields);
        match env.embed(Get(d, "summary"))
        case RateLimited(_) => Stopped(InternalError)
        case Err(_) => Stopped(InternalError)
        case Ok(embedding) =>
          if env.save(d, embedding) then Stored(d, embedding, Entry(d))
          else Stopped(InternalError)
  }

  /** One file of the loop, from the type check to the reply entry. */
  function ProcessFile(f: UploadedFile, env: Services): (r: FileOutcome)
    ensures f.mimetype != PdfType ==> r == Stopped(Response(400, Message(OnlyPdf)))
    ensures r.Stored? ==>
      && f.mimetype == PdfType
      && FirstMissing(Obj(r.record)) == None
      && (forall k :: k in OptionalFields ==> k in r.record)
      && r.entry == Entry(r.record)
      && env.save(r.record, r.embedding)
    ensures f.mimetype == PdfType && env.extract(f.path).None? ==> r == Stopped(InternalError)
    ensures f.mimetype == PdfType && env.extract(f.path).Some? && !env.complete(env.extract(f.path).value).Ok? ==>
      r == Stopped(InternalError)
    ensures f.mimetype == PdfType && env.extract(f.path).Some? && env.complete(env.extract(f.path).value).Ok? ==>
      var parsed := env.parse(CleanReply(env.complete(env.extract(f.path).value).value));
      && (parsed.None? ==> r == Stopped(Response(500, Message(ParseFailure))))
      && (parsed.Some? ==> r == StoreParsed(parsed.value, env))
    ensures r.Stopped? ==> r.response.status == 400 || r.response.status == 500
  {
    if f.mimetype != PdfType then Stopped(Response(400, Message(OnlyPdf)))
    else
      match env.extract(f.path)
      case None => Stopped(InternalError)
      case Some(text) =>
        match env.complete(text)
        case RateLimited(_) => Stopped(InternalError)
        case Err(_) => Stopped(InternalError)
        case Ok(output) =>
          match env.parse(CleanReply(output))
          case None => Stopped(Response(500, Message(ParseFailure)))
          case Some(candidate) => StoreParsed(candidate, env)
  }

  /** A parsed candidate missing a required field is reported by the first
      such field in checking order, and nothing is stored. */
  lemma MissingFieldIsReported(f: UploadedFile, env: Services, text: string, output: string, candidate: Value, field: string)
    requires f.mimetype == PdfType && env.extract(f.path) == Some(text)
    requires env.complete(text) == Ok(output) && env.parse(CleanReply(output)) == Some(candidate)
    requires Readable(candidate) && FirstMissing(candidate) == Some(field)
    ensures ProcessFile(f, env) == Stopped(Response(400, Message("Missing field: " + field)))
  {
  }

  // ---------------------------------------------------------------------
  // The whole batch.

  /** The records stored so far, the reply entries for them, and the reply
      that ended the loop early, if one did. */
  datatype Batch = Batch(saved: seq<(Record, Value)>, entries: seq<Record>, stop: Option<Response>)

  /** The loop over the files, in order, up to the first that stops it, with
      `step` the processing of one file. */
  function ProcessAll(files: seq<UploadedFile>, step: UploadedFile -> FileOutcome): (r: Batch)
    ensures |r.saved| == |r.entries| <= |files|
    ensures forall i :: 0 <= i < |r.saved| ==>
      && step(files[i]).Stored?
      && r.saved[i] == (step(files[i]).record, step(files[i]).embedding)
      && r.entries[i] == step(files[i]).entry
    ensures r.stop.None? <==> forall i :: 0 <= i < |files| ==> step(files[i]).Stored?
    ensures r.stop.None? ==> |r.saved| == |files|
    ensures r.stop.Some? ==>
      && |r.saved| < |files|
      && step(files[|r.saved|]) == Stopped(r.stop.value)
    decreases |files|
  {
    if |files| == 0 then Batch([], [], None)
    else
      match step(files[0])
      case Stopped(response) => Batch([], [], Some(response))
      case Stored(record, embedding, entry) =>
        var rest := ProcessAll(files[1..], step);
        assert forall i :: 1 <= i < |files| ==> files[i] == files[1..][i - 1];
        Batch([(record, embedding)] + rest.saved, [entry] + rest.entries, rest.stop)
  }

  /** The handler: the batch reply, and the records it stored. */
  datatype Upload = Upload(response: Response, saved: seq<(Record, Value)>)

  function UploadCandidates(files: Option<seq<UploadedFile>>, env: Services): (r: Upload)
    ensures files.None? || files == Some([]) ==> r == Upload(Response(400, Message(NoFiles)), [])
    ensures files.Some? && |files.value| > 0 ==>
      var b := ProcessAll(files.value, f => ProcessFile(f, env));
      && r.saved == b.saved
      && (b.stop.None? ==> r.response == Candidates(b.entries))
      && (b.stop.Some? ==> r.response == b.stop.value)
  {
    if files.None? || |files.value| == 0 then Upload(Response(400, Message(NoFiles)), [])
    else
      var b := ProcessAll(files.value, f => ProcessFile(f, env));
      Upload(if b.stop.Some? then b.stop.value else Candidates(b.entries), b.saved)
  }

  // ---------------------------------------------------------------------
  // Properties of the batch.

  /** When every file goes through, the reply lists one entry per file, in
      upload order, each the stored record with `id` set to its email (or to
      the record's own `id`), and every record is stored. */
  lemma AllFilesStored(files: seq<UploadedFile>, env: Services)
    requires |files| > 0
    requires forall i :: 0 <= i < |files| ==> ProcessFile(files[i], env).Stored?
    ensures var r := UploadCandidates(Some(files), env);
      && r.response.status == 200
      && r.response.body.CandidateList?
      && |r.response.body.items| == |files| == |r.saved|
      && forall i :: 0 <= i < |files| ==>
        && r.saved[i].0 == ProcessFile(files[i], env).record
        && r.response.body.items[i] == Entry(r.saved[i].0)
        && r.response.body.items[i]["id"] ==
             (if "id" in r.saved[i].0 then r.saved[i].0["id"] else r.saved[i].0["email"])
  {
    var step := f => ProcessFile(f, env);
    assert forall i :: 0 <= i < |files| ==> step(files[i]) == ProcessFile(files[i], env);
    var b := ProcessAll(files, step);
    assert b.stop.None? && |b.saved| == |b.entries| == |files|;
    forall i | 0 <= i < |files|
      ensures b.saved[i].0 == ProcessFile(files[i], env).record
      ensures b.entries[i] == Entry(b.saved[i].0)
      ensures "email" in b.saved[i].0
    {
      var out := ProcessFile(files[i], env);
      assert step(files[i]) == out;
      EmailIsKept(out.record);
    }
  }

  /** A record that passed the required check has an `email`. */
  lemma EmailIsKept(d: Record)
    requires FirstMissing(Obj(d)) == None
    ensures "email" in d
  {
    assert "email" in RequiredFields;
  }

  /** The loop stops at the first file whose step stops, and keeps exactly
      the files before it. */
  lemma {:induction false} StopsAtFirstStop(files: seq<UploadedFile>, step: UploadedFile -> FileOutcome, k: nat)
    requires k < |files|
    requires forall i :: 0 <= i < k ==> step(files[i]).Stored?
    requires step(files[k]).Stopped?
    ensures var b := ProcessAll(files, step);
      && b.stop == Some(step(files[k]).response)
      && |b.saved| == k
  {
    var b := ProcessAll(files, step);
    assert b.stop.Some?;
    var n := |b.saved|;
    assert step(files[n]).Stopped?;
    assert k <= n;
    assert n <= k;
  }

  /** The first file that stops the loop decides the reply, and exactly the
      files before it are stored. */
  lemma FirstStopDecides(files: seq<UploadedFile>, env: Services, k: nat)
    requires k < |files|
    requires forall i :: 0 <= i < k ==> ProcessFile(files[i], env).Stored?
    requires ProcessFile(files[k], env).Stopped?
    ensures var r := UploadCandidates(Some(files), env);
      && r.response == ProcessFile(files[k], env).response
      && |r.saved| == k
      && forall i :: 0 <= i < k ==> r.saved[i].0 == ProcessFile(files[i], env).record
  {
    var step := f => ProcessFile(f, env);
    assert forall i :: 0 <= i < |files| ==> step(files[i]) == ProcessFile(files[i], env);
    StopsAtFirstStop(files, step, k);
  }

  /** A file that is not a PDF, after files that all went through, ends the
      request with 400 and leaves the earlier files stored. */
  lemma NonPdfStopsAfterEarlierStored(files: seq<UploadedFile>, env: Services, k: nat)
    requires k < |files| && files[k].mimetype != PdfType
    requires forall i :: 0 <= i < k ==> ProcessFile(files[i], env).Stored?
    ensures var r := UploadCandidates(Some(files), env);
      && r.response == Response(400, Message(OnlyPdf))
      && |r.saved| == k
  {
    FirstStopDecides(files, env, k);
  }
}

=== FILE: common.dfy ===
/**
 Shared vocabulary of the recruiting backend model: optional values, the
 JavaScript values that JSON parsing produces, JavaScript truthiness, the
 tagged outcomes of the external model service and of the graph store, and
 HTTP responses.
 */
module Common {

  datatype Option<+T> = None | Some(value: T)

  /** A JavaScript value as JSON.parse produces it, plus `undefined` for a
      property that is absent. Numbers are integers in this model. */
  datatype Value =
    | Undefined
    | Null
    | Bool(b: bool)
    | Num(n: int)
    | Str(s: string)
    | Arr(items: seq<Value>)
    | Obj(fields: map<string, Value>)

  /** A plain object's own properties. */
  type Record = map<string, Value>

  /** JavaScript truthiness: `undefined`, `null`, `false`, `0` and `""` are
      falsy; every other value, empty arrays and objects included, is truthy. */
  predicate Truthy(v: Value) {
    match v
    case Undefined => false
    case Null => false
    case Bool(b) => b
    case Num(n) => n != 0
    case Str(s) => s != ""
    case Arr(_) => true
    case Obj(_) => true
  }

  /** Reading a property would throw a TypeError on `null` and `undefined`. */
  predicate Readable(v: Value) {
    !v.Null? && !v.Undefined?
  }

  /** Property read `v[key]` of a readable value, for the non-numeric keys
      other than `length` that this model reads: only objects have them. */
  function Member(v: Value, key: string): Value {
    if v.Obj? && key in v.fields then v.fields[key] else Undefined
  }

  /** A property of a record, `undefined` when absent. */
  function Get(rec: Record, key: string): Value {
    if key in rec then rec[key] else Undefined
  }

  /** What a call to the external language-model service comes back with:
      a value, a rate-limit signal carrying the service's `retryAfter`, or
      any other error. */
  datatype Outcome<+T> = Ok(value: T) | RateLimited(retryAfter: Value) | Err(message: string)

  /** What a graph-store call comes back with: a value, or a thrown error. */
  datatype Db<+T> = Fetched(value: T) | DbFailure

  datatype Body =
    | Message(text: string)
    | RateLimit(text: string, retryAfter: Value)
    | CandidateList(items: seq<Record>)

  datatype Response = Response(status: int, body: Body)

  /** The reply of every handler's outer catch block. */
  const InternalError := Response(500, Message("Internal Server Error"))

  /** A 200 reply carrying a candidate list. */
  function Candidates(items: seq<Record>): Response {
    Response(200, CandidateList(items))
  }

  /** The limit every handler and the graph search fall back to when the
      caller leaves it out. */
  const DefaultLimit := 10

  /** `limit = 10` in a destructuring or a parameter list. */
  function LimitOrDefault(limit: Option<int>): (n: int)
    ensures limit.None? ==> n == DefaultLimit
    ensures limit.Some? ==> n == limit.value
  {
    if limit.Some? then limit.value else DefaultLimit
  }
}

=== FILE: graph_query.dfy ===
/**
 The Cypher text and parameters `searchCandidates` of
 src/services/graphDBService.js builds from a filter object: a condition on
 years of experience when `filters.experience` is truthy, a fuzzy skills
 condition when `filters.skills` is a non-empty list, `TRUE` when neither
 applies, and the result ordered by experience and limited to `limit`.
 */
module GraphQuery {
  import opened Common
  import opened Text

  const MatchPrefix := "MATCH (c:Candidate) WHERE "
  const ReturnSuffix := "RETURN c ORDER BY c.totalExperienceYears DESC LIMIT $limit"
  const ExperienceCondition := "c.totalExperienceYears >= $experience"
  const SkillsCondition := "ANY(skill IN $skills WHERE ANY(candidateSkill IN c.skills WHERE apoc.text.fuzzyMatch(candidateSkill, skill) > 0.7) OR apoc.text.fuzzyMatch(c.summary + \" \" + c.experience, skill) > 0.7)"

  /** The parameter map passed with the query; a parameter is None when the
      map has no such key. */
  datatype Params = Params(experience: Option<Value>, skills: Option<Value>, limit: int)

  datatype CypherQuery = CypherQuery(text: string, params: Params)

  /** `v.length > 0` for the values that have a length: arrays and strings,
      and objects carrying a positive numeric `length` property. */
  predicate HasItems(v: Value) {
    match v
    case Arr(items) => |items| > 0
    case Str(s) => |s| > 0
    case Obj(_) => Member(v, "length").Num? && Member(v, "length").n > 0
    case _ => false
  }

  /** `if (filters.experience)`. */
  predicate ExperienceApplies(filters: Value) {
    Truthy(Member(filters, "experience"))
  }

  /** `if (filters.skills && filters.skills.length > 0)`. */
  predicate SkillsApply(filters: Value) {
    Truthy(Member(filters, "skills")) && HasItems(Member(filters, "skills"))
  }

  /** The conditions pushed, in order. */
  function Conditions(filters: Value): (r: seq<string>)
    ensures |r| <= 2
    ensures ExperienceCondition in r <==> ExperienceApplies(filters)
    ensures SkillsCondition in r <==> SkillsApply(filters)
  {
    (if ExperienceApplies(filters) then [ExperienceCondition] else [])
      + (if SkillsApply(filters) then [SkillsCondition] else [])
  }

  /** The text between `WHERE ` and `RETURN`. */
  function WhereClause(conditions: seq<string>): string {
    if |conditions| == 0 then "TRUE " else JoinWith(conditions, " AND ") + " "
  }

  /** `searchCandidates(filters, limit = 10)` up to the call into the
      driver; None where reading a property of `null` or `undefined` filters
      throws. */
  function BuildSearchQuery(filters: Value, limit: Option<int>): (r: Option<CypherQuery>)
    ensures r.None? <==> !Readable(filters)
    ensures r.Some? ==> (r.value.params.experience.Some? <==> ExperienceApplies(filters))
    ensures r.Some? && ExperienceApplies(filters) ==> r.value.params.experience.value == Member(filters, "experience")
    ensures r.Some? ==> (r.value.params.skills.Some? <==> SkillsApply(filters))
    ensures r.Some? && SkillsApply(filters) ==> r.value.params.skills.value == Member(filters, "skills")
    ensures r.Some? ==> r.value.params.limit == if limit.Some? then limit.value else DefaultLimit
  {
    if !Readable(filters) then None
    else
      var params := Params(
        if ExperienceApplies(filters) then Some(Member(filters, "experience")) else None,
        if SkillsApply(filters) then Some(Member(filters, "skills")) else None,
        LimitOrDefault(limit));
      Some(CypherQuery(MatchPrefix + WhereClause(Conditions(filters)) + ReturnSuffix, params))
  }

  /** The WHERE clause for each combination of the two conditions, whatever
      their text. */
  lemma WhereClauseOf(e: bool, k: bool, ec: string, sc: string)
    ensures WhereClause((if e then [ec] else []) + (if k then [sc] else [])) ==
      (if e && k then ec + " AND " + sc else if e then ec else if k then sc else "TRUE") + " "
  {
    var cs := (if e then [ec] else []) + (if k then [sc] else []);
    if e && k {
      assert cs == [ec, sc] && cs[1..] == [sc];
      assert JoinWith(cs[1..], " AND ") == sc;
      assert JoinWith(cs, " AND ") == ec + " AND " + sc;
    } else if e {
      assert cs == [ec];
    } else if k {
      assert cs == [sc];
    }
  }

  lemma Regroup(p: string, x: string, y: string, s: string)
    ensures p + (x + y) + s == p + x + y + s
  {
  }

  /** The query text: the experience condition before the skills condition,
      joined by AND, or TRUE when neither applies, between the MATCH and the
      RETURN clause. */
  lemma QueryText(filters: Value, limit: Option<int>)
    requires Readable(filters)
    ensures BuildSearchQuery(filters, limit).value.text == MatchPrefix
      + (if ExperienceApplies(filters) && SkillsApply(filters) then ExperienceCondition + " AND " + SkillsCondition
         else if ExperienceApplies(filters) then ExperienceCondition
         else if SkillsApply(filters) then SkillsCondition
         else "TRUE")
      + " " + ReturnSuffix
  {
    var e := ExperienceApplies(filters);
    var k := SkillsApply(filters);
    WhereClauseOf(e, k, ExperienceCondition, SkillsCondition);
    Regroup(MatchPrefix,
      if e && k then ExperienceCondition + " AND " + SkillsCondition else if e then ExperienceCondition else if k then SkillsCondition else "TRUE",
      " ", ReturnSuffix);
  }

  /** Every query starts with the MATCH and ends with the RETURN clause. */
  lemma QueryIsFramed(filters: Value, limit: Option<int>)
    requires Readable(filters)
    ensures var text := BuildSearchQuery(filters, limit).value.text;
      && |MatchPrefix| + |ReturnSuffix| < |text|
      && text[..|MatchPrefix|] == MatchPrefix
      && text[|text| - |ReturnSuffix|..] == ReturnSuffix
  {
    QueryText(filters, limit);
    var text := BuildSearchQuery(filters, limit).value.text;
    var middle := text[|MatchPrefix|..|text| - |ReturnSuffix|];
    assert text == MatchPrefix + middle + ReturnSuffix;
  }

  /** The WHERE clause is `TRUE` exactly when no filter applies. */
  lemma TrueExactlyWithoutConditions(filters: Value, limit: Option<int>)
    requires Readable(filters)
    ensures BuildSearchQuery(filters, limit).value.text == MatchPrefix + "TRUE " + ReturnSuffix
      <==> !ExperienceApplies(filters) && !SkillsApply(filters)
  {
    QueryLength(filters, limit);
  }

  /** The length of the query text for each combination of filters: all
      four differ. */
  lemma QueryLength(filters: Value, limit: Option<int>)
    requires Readable(filters)
    ensures var n := |BuildSearchQuery(filters, limit).value.text| - |MatchPrefix| - |ReturnSuffix|;
      n == (if ExperienceApplies(filters) then |ExperienceCondition| else 0)
        + (if SkillsApply(filters) then |SkillsCondition| else 0)
        + (if ExperienceApplies(filters) && SkillsApply(filters) then 5 else 0)
        + (if !ExperienceApplies(filters) && !SkillsApply(filters) then 4 else 0)
        + 1
  {
    QueryText(filters, limit);
  }

  /** The query text tells which filters applied: two filter objects give
      the same text exactly when the same conditions apply to both. */
  lemma QueryTextDeterminesConditions(a: Value, b: Value, limit: Option<int>)
    requires Readable(a) && Readable(b)
    ensures BuildSearchQuery(a, limit).value.text == BuildSearchQuery(b, limit).value.text
      <==> ExperienceApplies(a) == ExperienceApplies(b) && SkillsApply(a) == SkillsApply(b)
  {
    QueryLength(a, limit);
    QueryLength(b, limit);
  }
}

=== FILE: job_listing.dfy ===
/**
 `matchJobListing` of src/controllers/jobListingController.js: candidates
 graded against a job description, sorted by score and joined with the
 stored candidates. Unlike the search, the reply is not cut to `limit`; the
 limit only reaches the prompt.
 */
module JobListing {
  import opened Common
  import opened Text
  import opened Ranking
  import opened RankingProperties

  /** The request body fields the handler reads; `title` and `location` are
      read but never used. */
  datatype JobRequest = JobRequest(description: Value, limit: Option<int>)

  /** The collaborators: the embedding service, the candidate store, the
      language model, JSON.parse of the cleaned reply, and the lookup by
      email or phone. */
  datatype Services = Services(
    embed: Value -> Outcome<Value>,
    store: Db<seq<Record>>,
    grade: Grader,
    parse: string -> Option<Graded>,
    lookup: Lookup)

  const NoDescription := "Job description is required."

  /** The grading request for a non-empty store. */
  function Request(req: JobRequest, cands: seq<Record>): GradingRequest {
    GradingRequest(JobDescription(req.description), LimitOrDefault(req.limit), CandidateViews(cands))
  }

  /** The handler's reply. */
  function MatchJobListing(req: JobRequest, env: Services): (r: Response)
    ensures r.status == 400 <==> !Truthy(req.description)
    ensures !Truthy(req.description) ==> r == Response(400, Message(NoDescription))
    ensures Truthy(req.description) && env.embed(req.description).RateLimited? ==>
      r == Response(429, RateLimit("Rate limit reached", env.embed(req.description).retryAfter))
    ensures Truthy(req.description) && env.embed(req.description).Err? ==> r == InternalError
    ensures Truthy(req.description) && env.embed(req.description).Ok? ==>
      && (env.store.DbFailure? ==> r == InternalError)
      && (env.store == Fetched([]) ==> r == Candidates([]))
    ensures Truthy(req.description) && env.embed(req.description).Ok? && env.store.Fetched? && |env.store.value| > 0 ==>
      var outcome := env.grade(Request(req, env.store.value));
      && r == HandleGrading(outcome, env.parse, env.lookup, None)
      && (outcome.RateLimited? ==> r == Response(429, RateLimit("Rate limit reached", outcome.retryAfter)))
      && (outcome.Err? ==> r == InternalError)
      && (outcome.Ok? && env.parse(CleanReply(outcome.value)).None? ==> r == Response(500, Message("Failed to parse LLM response.")))
    ensures r.status == 200 || r.status == 400 || r.status == 429 || r.status == 500
  {
    if !Truthy(req.description) then Response(400, Message(NoDescription))
    else
      match env.embed(req.description)
      case RateLimited(retryAfter) => Response(429, RateLimit("Rate limit reached", retryAfter))
      case Err(_) => InternalError
      case Ok(_) =>
        match env.store
        case DbFailure => InternalError
        case Fetched(cands) =>
          if |cands| == 0 then Candidates([])
          else HandleGrading(env.grade(Request(req, cands)), env.parse, env.lookup, None)
  }

  /** Without a description the reply is the same whatever the services
      would give: none of them is consulted. */
  lemma NoDescriptionConsultsNothing(req: JobRequest, a: Services, b: Services)
    requires !Truthy(req.description)
    ensures MatchJobListing(req, a) == MatchJobListing(req, b)
  {
  }

  /** The rate limit of the model, after the embedding went through, is
      reported with the model's own retry time. */
  lemma ModelRateLimitIsReported(req: JobRequest, env: Services)
    requires Truthy(req.description) && env.embed(req.description).Ok?
    requires env.store.Fetched? && |env.store.value| > 0
    requires env.grade(Request(req, env.store.value)).RateLimited?
    ensures MatchJobListing(req, env) ==
      Response(429, RateLimit("Rate limit reached", env.grade(Request(req, env.store.value)).retryAfter))
  {
  }

  /** A successful match lists stored records without their embedding, in
      non-increasing score order. */
  lemma MatchReplyIsRanked(req: JobRequest, env: Services)
    requires MatchJobListing(req, env).status == 200
    ensures var r := MatchJobListing(req, env);
      && r.body.CandidateList?
      && (forall k :: 0 <= k < |r.body.items| ==> "score" in r.body.items[k] && r.body.items[k]["score"].Num? && "embedding" !in r.body.items[k])
      && (forall k, l :: 0 <= k < l < |r.body.items| ==> RecordScore(r.body.items[k]) >= RecordScore(r.body.items[l]))
  {
    if Truthy(req.description) && env.embed(req.description).Ok? && env.store.Fetched? && |env.store.value| > 0 {
      GradingReplyIsOrderedAndCut(env.grade(Request(req, env.store.value)), env.parse, env.lookup, None);
    }
  }

  /** A successful match over a non-empty grading lists every graded entry
      the lookup finds, however small `limit` is, and nothing else. */
  lemma MatchListsEveryFound(req: JobRequest, env: Services, items: seq<Grade>)
    requires Truthy(req.description) && env.embed(req.description).Ok?
    requires env.store.Fetched? && |env.store.value| > 0
    requires var outcome := env.grade(Request(req, env.store.value));
      outcome.Ok? && env.parse(CleanReply(outcome.value)) == Some(Grades(items)) && |items| > 0
    requires MatchJobListing(req, env).status == 200
    ensures var rs := MatchJobListing(req, env).body.items;
      && (forall g :: g in items && Found(env.lookup, g) ==> Annotate(FoundRecord(env.lookup, g), g) in rs)
      && (forall e :: e in rs ==>
            exists g :: g in items && Found(env.lookup, g) && e == Annotate(FoundRecord(env.lookup, g), g))
  {
    var outcome := env.grade(Request(req, env.store.value));
    assert MatchJobListing(req, env) == HandleGrading(outcome, env.parse, env.lookup, None);
    GradingReplyListsFound(outcome, env.parse, env.lookup, None, items);
    JoinListsFound(Kept(items, None), env.lookup);
    UncutKeepsEveryEntry(items);
  }

  /** When the lookup finds every graded entry, a successful match lists
      one record per entry, whatever `limit` is. */
  lemma MatchListsAllWhenAllFound(req: JobRequest, env: Services, items: seq<Grade>)
    requires Truthy(req.description) && env.embed(req.description).Ok?
    requires env.store.Fetched? && |env.store.value| > 0
    requires var outcome := env.grade(Request(req, env.store.value));
      outcome.Ok? && env.parse(CleanReply(outcome.value)) == Some(Grades(items)) && |items| > 0
    requires MatchJobListing(req, env).status == 200
    requires forall i :: 0 <= i < |items| ==> Found(env.lookup, items[i])
    ensures |MatchJobListing(req, env).body.items| == |items|
  {
    var outcome := env.grade(Request(req, env.store.value));
    assert MatchJobListing(req, env) == HandleGrading(outcome, env.parse, env.lookup, None);
    GradingReplyListsFound(outcome, env.parse, env.lookup, None, items);
    UncutJoinListsAll(items, env.lookup);
  }

  // ---------------------------------------------------------------------
  // As written against the model service.

  /** The handler as written against src/services/azureOpenAIService.js,
      whose `getEmbeddings` resolves to the embedding array and whose
      `getLLMResponse` resolves to the reply text, both rejecting on every
      failure (None here). Destructuring `error` from an array or a string
      gives `undefined`, so no error is ever seen, and the undefined
      `content` makes `llmOutput.replace` throw inside the parse block. */
  function MatchAsWritten(req: JobRequest, embedding: Value -> Option<seq<Value>>, reply: GradingRequest -> Option<string>, env: Services): (r: Response)
    ensures !Truthy(req.description) ==> r == Response(400, Message(NoDescription))
    ensures Truthy(req.description) && embedding(req.description).None? ==> r == InternalError
  {
    if !Truthy(req.description) then Response(400, Message(NoDescription))
    else
      match embedding(req.description)
      case None => InternalError
      case Some(vector) =>
        var embeddingError := Member(Arr(vector), "error");
        if Truthy(embeddingError) then
          if embeddingError == Str("Rate limited") then Response(429, RateLimit("Rate limit reached", Member(Arr(vector), "retryAfter")))
          else InternalError
        else
          match env.store
          case DbFailure => InternalError
          case Fetched(cands) =>
            if |cands| == 0 then Candidates([])
            else
              match reply(Request(req, cands))
              case None => InternalError
              case Some(text) =>
                var content := Member(Str(text), "content");
                var error := Member(Str(text), "error");
                if Truthy(error) then
                  if error == Str("Rate limited") then Response(429, RateLimit("Rate limit reached", Member(Str(text), "retryAfter")))
                  else InternalError
                else if !content.Str? then Response(500, Message("Failed to parse LLM response."))
                else HandleGrading(Ok(content.s), env.parse, env.lookup, None)
  }

  /** As written, a match that reaches the model never lists a candidate,
      and no rate limit is ever reported: whatever the services return, the
      reply is the parse failure. */
  lemma MatchAsWrittenNeverRanks(req: JobRequest, embedding: Value -> Option<seq<Value>>, reply: GradingRequest -> Option<string>, env: Services)
    requires Truthy(req.description) && embedding(req.description).Some?
    requires env.store.Fetched? && |env.store.value| > 0
    requires reply(Request(req, env.store.value)).Some?
    ensures MatchAsWritten(req, embedding, reply, env) == Response(500, Message("Failed to parse LLM response."))
  {
  }
}

=== FILE: job_queue.dfy ===
/**
 The durable job queue of src/services/sqliteQueue.js: one `jobs` table whose
 rows carry an id, a JSON `data` payload, a `status`, a JSON `result` and a
 `retryAfter` time in epoch seconds. The table is a map from id to row plus
 the AUTOINCREMENT counter; each prepared statement is a pure function over
 it, and the clock reading the source takes (`Math.floor(Date.now() / 1000)`)
 is the parameter `now`.
 */
module JobQueue {
  import opened Common

  /** The values the CHECK constraint on `status` admits. */
  datatype Status = Pending | Active | Completed | Failed

  /** One row of `jobs`, with `data` and `result` as the values their JSON
      text parses back to. */
  datatype Job = Job(id: int, data: Value, status: Status, result: Option<Value>, retryAfter: Option<int>)

  /** The table: rows by id, and the AUTOINCREMENT counter, which is the
      largest id ever handed out (0 before the first insert). */
  datatype Store = Store(jobs: map<int, Job>, lastId: int)

  /** SQLite's largest rowid, 2^63 - 1. */
  const MaxRowId := 0x7FFF_FFFF_FFFF_FFFF

  /** Every row sits under its own id, and ids run from 1 up to the counter. */
  predicate Valid(s: Store) {
    && 0 <= s.lastId <= MaxRowId
    && forall id :: id in s.jobs ==> s.jobs[id].id == id && 1 <= id <= s.lastId
  }

  /** The table as CREATE TABLE leaves it. */
  function EmptyStore(): (s: Store)
    ensures Valid(s) && s.jobs == map[]
  {
    Store(map[], 0)
  }

  /** What a `data` column reads back as: JSON.stringify(undefined) stores
      NULL, which JSON.parse reads back as null. */
  function StoredData(v: Value): (r: Value)
    ensures v.Undefined? ==> r == Null
    ensures !v.Undefined? ==> r == v
  {
    if v.Undefined? then Null else v
  }

  /** What a `result` column reads back as: a NULL column is left as null
      rather than parsed. */
  function StoredResult(v: Value): (r: Option<Value>)
    ensures r.None? <==> v.Undefined?
    ensures r.Some? ==> r.value == v
  {
    if v.Undefined? then None else Some(v)
  }

  /** Outcome of the INSERT: the new table and the row's id, or SQLITE_FULL
      once the counter has reached the largest rowid. */
  datatype Inserted = Inserted(store: Store, id: int) | StoreFull

  /** `add(data)`: INSERT with every other column at its default. */
  function Add(s: Store, data: Value): (r: Inserted)
    requires Valid(s)
    ensures r.StoreFull? <==> s.lastId == MaxRowId
    ensures r.Inserted? ==>
      && Valid(r.store)
      && r.id !in s.jobs
      && (forall id :: id in s.jobs ==> id < r.id)
      && r.id == s.lastId + 1
      && r.store.lastId == r.id
      && r.store.jobs == s.jobs[r.id := Job(r.id, StoredData(data), Pending, None, None)]
  {
    if s.lastId == MaxRowId then StoreFull
    else
      var id := s.lastId + 1;
      Inserted(Store(s.jobs[id := Job(id, StoredData(data), Pending, None, None)], id), id)
  }

  /** `getJob(id)`: the row with that id, if there is one. */
  function GetJob(s: Store, id: int): (r: Option<Job>)
    requires Valid(s)
    ensures r.Some? <==> id in s.jobs
    ensures r.Some? ==> r.value.id == id && r.value == s.jobs[id]
  {
    if id in s.jobs then Some(s.jobs[id]) else None
  }

  /** The shared UPDATE statement: overwrite status, result and retryAfter of
      the row with that id; no row matches an absent id. */
  function Update(s: Store, id: int, status: Status, result: Option<Value>, retryAfter: Option<int>): (r: Store)
    requires Valid(s)
    ensures Valid(r)
    ensures r.lastId == s.lastId && r.jobs.Keys == s.jobs.Keys
    ensures forall k :: k in s.jobs && k != id ==> r.jobs[k] == s.jobs[k]
    ensures id in s.jobs ==>
      && r.jobs[id].id == id
      && r.jobs[id].data == s.jobs[id].data
      && r.jobs[id].status == status
      && r.jobs[id].result == result
      && r.jobs[id].retryAfter == retryAfter
    ensures id !in s.jobs ==> r == s
  {
    if id in s.jobs then
      var j := s.jobs[id];
      Store(s.jobs[id := Job(j.id, j.data, status, result, retryAfter)], s.lastId)
    else s
  }

  /** `completeJob(id, result)`. */
  function CompleteJob(s: Store, id: int, result: Value): (r: Store)
    requires Valid(s)
    ensures Valid(r)
    ensures id in s.jobs ==>
      GetJob(r, id) == Some(Job(id, s.jobs[id].data, Completed, StoredResult(result), None))
    ensures forall k :: k != id ==> GetJob(r, k) == GetJob(s, k)
  {
    Update(s, id, Completed, StoredResult(result), None)
  }

  /** The `{ error: error.message }` object `failJob` stores; JSON.stringify
      leaves out a property whose value is `undefined`. */
  function ErrorPayload(message: Value): (r: Value)
    ensures r.Obj?
    ensures "error" in r.fields <==> !message.Undefined?
    ensures "error" in r.fields ==> r.fields["error"] == message
    ensures r.fields.Keys <= {"error"}
  {
    if message.Undefined? then Obj(map[]) else Obj(map["error" := message])
  }

  /** `failJob(id, error, retryAfter = null)`: `retryAfter` is None when it is
      left out or null. The payload reads `error.message` inside the `try`,
      so a null or undefined `error` throws a TypeError, which is rethrown,
      before the UPDATE runs: the table is left as it was. */
  function FailJob(s: Store, id: int, error: Value, retryAfter: Option<int>): (r: Store)
    requires Valid(s)
    ensures Valid(r)
    ensures !Readable(error) ==> r == s
    ensures Readable(error) && id in s.jobs ==>
      GetJob(r, id) == Some(Job(id, s.jobs[id].data, Failed, Some(ErrorPayload(Member(error, "message"))), retryAfter))
    ensures forall k :: k != id ==> GetJob(r, k) == GetJob(s, k)
  {
    if !Readable(error) then s
    else Update(s, id, Failed, Some(ErrorPayload(Member(error, "message"))), retryAfter)
  }

  /** The WHERE clause of both selection statements: pending, or failed with
      no retryAfter or one that has passed. */
  predicate Ready(j: Job, now: int) {
    j.status == Pending || (j.status == Failed && (j.retryAfter.None? || j.retryAfter.value <= now))
  }

  /** Scan of the ids from `k` up to the counter for the first ready row. */
  function NextReadyFrom(s: Store, now: int, k: int): (r: Option<Job>)
    requires Valid(s) && 1 <= k
    ensures r.Some? ==>
      && r.value.id in s.jobs && s.jobs[r.value.id] == r.value
      && Ready(r.value, now) && k <= r.value.id
      && forall id :: k <= id < r.value.id && id in s.jobs ==> !Ready(s.jobs[id], now)
    ensures r.None? ==> forall id :: k <= id && id in s.jobs ==> !Ready(s.jobs[id], now)
    decreases s.lastId + 1 - k
  {
    if k > s.lastId then None
    else if k in s.jobs && Ready(s.jobs[k], now) then Some(s.jobs[k])
    else NextReadyFrom(s, now, k + 1)
  }

  /** `getNextReadyJob()`: ORDER BY id ASC LIMIT 1 over the ready rows. */
  function GetNextReadyJob(s: Store, now: int): (r: Option<Job>)
    requires Valid(s)
    ensures r.None? <==> forall id :: id in s.jobs ==> !Ready(s.jobs[id], now)
    ensures r.Some? ==>
      && r.value.id in s.jobs && s.jobs[r.value.id] == r.value && Ready(r.value, now)
      && forall id :: id in s.jobs && Ready(s.jobs[id], now) ==> r.value.id <= id
  {
    NextReadyFrom(s, now, 1)
  }

  /** Ready rows with ids from `k` up to the counter, in ascending id order. */
  function ReadyFrom(s: Store, now: int, k: int): (r: seq<Job>)
    requires Valid(s) && 1 <= k
    ensures forall i :: 0 <= i < |r| ==>
      && r[i].id in s.jobs && s.jobs[r[i].id] == r[i] && Ready(r[i], now) && k <= r[i].id
    ensures forall id :: k <= id && id in s.jobs && Ready(s.jobs[id], now) ==> s.jobs[id] in r
    ensures forall i, j :: 0 <= i < j < |r| ==> r[i].id < r[j].id
    decreases s.lastId + 1 - k
  {
    if k > s.lastId then []
    else if k in s.jobs && Ready(s.jobs[k], now) then [s.jobs[k]] + ReadyFrom(s, now, k + 1)
    else ReadyFrom(s, now, k + 1)
  }

  /** `getPendingJobs()`: every ready row. The statement has no ORDER BY;
      the model lists the rows in ascending id order. */
  function GetPendingJobs(s: Store, now: int): (r: seq<Job>)
    requires Valid(s)
    ensures forall j :: j in r <==> j.id in s.jobs && s.jobs[j.id] == j && Ready(j, now)
    ensures forall i, j :: 0 <= i < j < |r| ==> r[i].id < r[j].id
  {
    ReadyFrom(s, now, 1)
  }

  /** No row is `active`. */
  predicate NoActive(s: Store) {
    forall id :: id in s.jobs ==> s.jobs[id].status != Active
  }
}

=== FILE: job_queue_properties.dfy ===
/**
 Properties of the job queue that relate several of its statements: the two
 selection statements agree, updates decide readiness, readiness only grows
 with time, and ids only grow.
 */
module JobQueueProperties {
  import opened Common
  import opened JobQueue

  /** `getNextReadyJob` returns the first row `getPendingJobs` lists, and
      nothing exactly when that list is empty. */
  lemma NextReadyIsFirstPending(s: Store, now: int)
    requires Valid(s)
    ensures var p := GetPendingJobs(s, now);
      GetNextReadyJob(s, now) == if |p| == 0 then None else Some(p[0])
  {
    var p := GetPendingJobs(s, now);
    if |p| > 0 {
      assert p[0] in p;
    }
  }

  /** `completeJob` on an existing row takes it out of every later selection. */
  lemma CompletedJobIsNeverSelected(s: Store, id: int, result: Value, now: int)
    requires Valid(s) && id in s.jobs
    ensures var s' := CompleteJob(s, id, result);
      && s'.jobs[id] !in GetPendingJobs(s', now)
      && (GetNextReadyJob(s', now).Some? ==> GetNextReadyJob(s', now).value.id != id)
  {
  }

  /** After a `failJob` that does not throw, with a retry time `t`, the row is selected exactly at
      the times `now >= t`. */
  lemma FailedJobWaitsForRetryTime(s: Store, id: int, error: Value, t: int, now: int)
    requires Valid(s) && id in s.jobs && Readable(error)
    ensures var s' := FailJob(s, id, error, Some(t));
      s'.jobs[id] in GetPendingJobs(s', now) <==> t <= now
  {
  }

  /** After a `failJob` that does not throw, without a retry time, the row is ready again at once and
      at every later time: the queue does not treat it as a permanent failure. */
  lemma FailedJobWithoutRetryTimeIsReady(s: Store, id: int, error: Value, now: int)
    requires Valid(s) && id in s.jobs && Readable(error)
    ensures var s' := FailJob(s, id, error, None);
      && s'.jobs[id] in GetPendingJobs(s', now)
      && GetNextReadyJob(s', now).Some?
      && GetNextReadyJob(s', now).value.id <= id
  {
  }

  /** A row ready at some time is ready at every later time. */
  lemma ReadinessIsMonotoneInTime(s: Store, now: int, later: int)
    requires Valid(s) && now <= later
    ensures forall j :: j in GetPendingJobs(s, now) ==> j in GetPendingJobs(s, later)
  {
  }

  /** An UPDATE to a status other than `active` adds no `active` row. */
  lemma UpdateKeepsNoActive(s: Store, id: int, status: Status, result: Option<Value>, t: Option<int>)
    requires Valid(s) && NoActive(s) && status != Active
    ensures NoActive(Update(s, id, status, result, t))
  {
  }

  /** An INSERT adds a pending row, not an `active` one. */
  lemma AddKeepsNoActive(s: Store, data: Value)
    requires Valid(s) && NoActive(s)
    ensures Add(s, data).Inserted? ==> NoActive(Add(s, data).store)
  {
  }

  /** `active` is admitted by the schema but no statement writes it. */
  lemma ActiveIsNeverWritten(s: Store, data: Value, id: int, result: Value, error: Value, t: Option<int>)
    requires Valid(s) && NoActive(s)
    ensures Add(s, data).Inserted? ==> NoActive(Add(s, data).store)
    ensures NoActive(CompleteJob(s, id, result))
    ensures NoActive(FailJob(s, id, error, t))
  {
    AddKeepsNoActive(s, data);
    assert CompleteJob(s, id, result) == Update(s, id, Completed, StoredResult(result), None);
    UpdateKeepsNoActive(s, id, Completed, StoredResult(result), None);
    if Readable(error) {
      assert FailJob(s, id, error, t) == Update(s, id, Failed, Some(ErrorPayload(Member(error, "message"))), t);
      UpdateKeepsNoActive(s, id, Failed, Some(ErrorPayload(Member(error, "message"))), t);
    }
  }

  /** Completing twice with the same result is completing once, and of two
      completions the last one wins. */
  lemma CompleteJobLastWriteWins(s: Store, id: int, first: Value, second: Value)
    requires Valid(s)
    ensures CompleteJob(CompleteJob(s, id, first), id, second) == CompleteJob(s, id, second)
  {
  }

  /** Two inserts in a row get consecutive, increasing ids, and the second
      leaves the first row as inserted. */
  lemma ConsecutiveAddsIncrease(s: Store, a: Value, b: Value)
    requires Valid(s) && s.lastId + 2 <= MaxRowId
    ensures Add(s, a).Inserted?
    ensures Add(Add(s, a).store, b).Inserted?
    ensures Add(Add(s, a).store, b).id == Add(s, a).id + 1
    ensures GetJob(Add(Add(s, a).store, b).store, Add(s, a).id) == Some(Job(Add(s, a).id, StoredData(a), Pending, None, None))
  {
  }

  /** The payload an insert stores reads back through `getJob` as given,
      except `undefined`, which reads back as null; the new row is pending
      with no result and no retry time. */
  lemma AddedDataReadsBack(s: Store, data: Value)
    requires Valid(s) && s.lastId < MaxRowId
    ensures var r := Add(s, data);
      && r.Inserted?
      && GetJob(r.store, r.id).Some?
      && GetJob(r.store, r.id).value.status == Pending
      && GetJob(r.store, r.id).value.result.None?
      && GetJob(r.store, r.id).value.retryAfter.None?
      && (!data.Undefined? ==> GetJob(r.store, r.id).value.data == data)
      && (data.Undefined? ==> GetJob(r.store, r.id).value.data == Null)
  {
  }

  /** The result a completion stores reads back through `getJob` as given,
      except `undefined`, which leaves the column NULL and reads back as no
      result. */
  lemma CompletedResultReadsBack(s: Store, id: int, result: Value)
    requires Valid(s) && id in s.jobs
    ensures var job := GetJob(CompleteJob(s, id, result), id);
      && job.Some?
      && (!result.Undefined? ==> job.value.result == Some(result))
      && (result.Undefined? ==> job.value.result.None?)
  {
  }

  /** The two statements that write an existing row. */
  datatype Write = Completion(id: int, result: Value) | Failure(id: int, error: Value, retryAfter: Option<int>)

  /** A sequence of completions and failures, applied in order. */
  function ApplyWrites(s: Store, ws: seq<Write>): (r: Store)
    requires Valid(s)
    ensures Valid(r)
    ensures r.lastId == s.lastId
    ensures r.jobs.Keys == s.jobs.Keys
    decreases |ws|
  {
    if |ws| == 0 then s
    else
      var s1 := match ws[0]
        case Completion(id, result) => CompleteJob(s, id, result)
        case Failure(id, error, t) => FailJob(s, id, error, t);
      ApplyWrites(s1, ws[1..])
  }

  /** Completions and failures never lower the counter, so an insert after
      any number of them gets the id right after every id handed out before,
      and one no row has ever had. */
  lemma IdsAreNeverReused(s: Store, ws: seq<Write>, data: Value)
    requires Valid(s) && s.lastId < MaxRowId
    ensures var s2 := ApplyWrites(s, ws);
      && Add(s2, data).Inserted?
      && Add(s2, data).id == s.lastId + 1
      && Add(s2, data).id !in s.jobs
  {
  }

  /** An Error object carrying `message`. */
  function ErrorWith(message: Value): (e: Value)
    ensures Readable(e) && Member(e, "message") == message
  {
    Obj(map["message" := message])
  }

  /** The table after three inserts A, B, C; A completed, B rate limited
      until `now + 5`, C failed without a retry time. */
  function ThreeJobStore(a: Value, b: Value, c: Value, now: int, message: Value): Store {
    var s1 := Add(EmptyStore(), a).store;
    var s2 := Add(s1, b).store;
    var s3 := Add(s2, c).store;
    var s4 := CompleteJob(s3, 1, Str("done"));
    var s5 := FailJob(s4, 2, ErrorWith(Str("Rate limited")), Some(now + 5));
    FailJob(s5, 3, ErrorWith(message), None)
  }

  /** The rows the run leaves in the table. */
  function ThreeJobRows(a: Value, b: Value, c: Value, now: int, message: Value): (s: Store)
    ensures Valid(s) && s.jobs.Keys == {1, 2, 3}
  {
    Store(map[
      1 := Job(1, StoredData(a), Completed, Some(Str("done")), None),
      2 := Job(2, StoredData(b), Failed, Some(ErrorPayload(Str("Rate limited"))), Some(now + 5)),
      3 := Job(3, StoredData(c), Failed, Some(ErrorPayload(message)), None)], 3)
  }

  /** The three inserts of the run. */
  lemma ThreeInserts(a: Value, b: Value, c: Value)
    ensures Add(Add(Add(EmptyStore(), a).store, b).store, c).store == Store(map[
      1 := Job(1, StoredData(a), Pending, None, None),
      2 := Job(2, StoredData(b), Pending, None, None),
      3 := Job(3, StoredData(c), Pending, None, None)], 3)
  {
    var s1 := Add(EmptyStore(), a).store;
    assert s1 == Store(map[1 := Job(1, StoredData(a), Pending, None, None)], 1);
  }

  /** The completion and the two failures of the run. */
  lemma ThreeWrites(ja: Job, jb: Job, jc: Job, now: int, message: Value)
    requires ja.id == 1 && jb.id == 2 && jc.id == 3
    ensures var s3 := Store(map[1 := ja, 2 := jb, 3 := jc], 3);
      var s4 := CompleteJob(s3, 1, Str("done"));
      var s5 := FailJob(s4, 2, ErrorWith(Str("Rate limited")), Some(now + 5));
      FailJob(s5, 3, ErrorWith(message), None) == Store(map[
        1 := Job(1, ja.data, Completed, Some(Str("done")), None),
        2 := Job(2, jb.data, Failed, Some(ErrorPayload(Str("Rate limited"))), Some(now + 5)),
        3 := Job(3, jc.data, Failed, Some(ErrorPayload(message)), None)], 3)
  {
  }

  lemma ThreeJobStoreRows(a: Value, b: Value, c: Value, now: int, message: Value)
    ensures ThreeJobStore(a, b, c, now, message) == ThreeJobRows(a, b, c, now, message)
  {
    ThreeInserts(a, b, c);
    ThreeWrites(Job(1, StoredData(a), Pending, None, None), Job(2, StoredData(b), Pending, None, None),
      Job(3, StoredData(c), Pending, None, None), now, message);
  }

  lemma RowsAtOnce(a: Value, b: Value, c: Value, now: int, message: Value)
    ensures var s := ThreeJobRows(a, b, c, now, message);
      && GetNextReadyJob(s, now) == Some(s.jobs[3])
      && GetPendingJobs(s, now) == [s.jobs[3]]
  {
    var s := ThreeJobRows(a, b, c, now, message);
    var jc := s.jobs[3];
    assert ReadyFrom(s, now, 4) == [];
    assert ReadyFrom(s, now, 3) == [jc];
    assert ReadyFrom(s, now, 2) == [jc];
    assert ReadyFrom(s, now, 1) == [jc];
    NextReadyIsFirstPending(s, now);
  }

  lemma RowsLater(a: Value, b: Value, c: Value, now: int, message: Value)
    ensures var s := ThreeJobRows(a, b, c, now, message);
      && GetPendingJobs(s, now + 5) == [s.jobs[2], s.jobs[3]]
      && GetNextReadyJob(s, now + 5) == Some(s.jobs[2])
  {
    var s := ThreeJobRows(a, b, c, now, message);
    var jb := s.jobs[2];
    var jc := s.jobs[3];
    assert ReadyFrom(s, now + 5, 4) == [];
    assert ReadyFrom(s, now + 5, 3) == [jc];
    assert ReadyFrom(s, now + 5, 2) == [jb, jc];
    assert ReadyFrom(s, now + 5, 1) == [jb, jc];
    NextReadyIsFirstPending(s, now + 5);
  }

  /** Three jobs A, B and C: A completes, B is rate limited for five seconds
      and C fails without a retry time. At once C is the next ready job, and
      the only one, since a failure without a retry time is retried
      immediately. */
  lemma ThreeJobRunAtOnce(a: Value, b: Value, c: Value, now: int, message: Value)
    ensures var s := ThreeJobStore(a, b, c, now, message);
      && GetNextReadyJob(s, now) == Some(Job(3, StoredData(c), Failed, Some(ErrorPayload(message)), None))
      && GetPendingJobs(s, now) == [Job(3, StoredData(c), Failed, Some(ErrorPayload(message)), None)]
  {
    ThreeJobStoreRows(a, b, c, now, message);
    RowsAtOnce(a, b, c, now, message);
  }

  /** Five seconds later B is ready again, ahead of C; A is not (nor at any
      other time: see `CompletedJobIsNeverSelected`). */
  lemma ThreeJobRunLater(a: Value, b: Value, c: Value, now: int, message: Value)
    ensures var s := ThreeJobStore(a, b, c, now, message);
      && GetPendingJobs(s, now + 5) == [s.jobs[2], s.jobs[3]]
      && GetNextReadyJob(s, now + 5) == Some(Job(2, StoredData(b), Failed, Some(ErrorPayload(Str("Rate limited"))), Some(now + 5)))
  {
    ThreeJobStoreRows(a, b, c, now, message);
    RowsLater(a, b, c, now, message);
  }
}

=== FILE: ranking.dfy ===
/**
 The ranking step the search and job-listing controllers share: the view of
 each stored candidate sent to the language model, the handling of its
 grading reply, the stable sort by score, the optional cut to `limit`, and
 the join of each graded entry with the stored candidate it names.
 */
module Ranking {
  import opened Common
  import opened Text

  /** One element of the model's grading array, as the handlers read it. */
  datatype Grade = Grade(email: Value, score: int, explanation: Value)

  /** What JSON.parse of a grading reply gives: something other than an
      array, or an array of graded entries. */
  datatype Graded = NotAnArray | Grades(items: seq<Grade>)

  // ---------------------------------------------------------------------
  // The candidate view sent in the grading prompt.

  /** Array.prototype.join's conversion of one element to text. */
  function ElementText(v: Value): string
    decreases v
  {
    match v
    case Undefined => ""
    case Null => ""
    case Bool(b) => if b then "true" else "false"
    case Num(n) => IntToString(n)
    case Str(s) => s
    case Arr(items) => JoinWith(seq(|items|, i requires 0 <= i < |items| => ElementText(items[i])), ",")
    case Obj(_) => "[object Object]"
  }

  predicate AllStrings(xs: seq<Value>) {
    forall i :: 0 <= i < |xs| ==> xs[i].Str?
  }

  /** `Array.isArray(skills) ? skills.join(', ') : skills`. */
  function SkillsText(skills: Value): (r: Value)
    ensures !skills.Arr? ==> r == skills
    ensures skills.Arr? ==> r.Str?
    ensures skills.Arr? && AllStrings(skills.items) ==>
      r == Str(JoinWith(seq(|skills.items|, i requires 0 <= i < |skills.items| => skills.items[i].s), ", "))
  {
    if skills.Arr? then
      var items := skills.items;
      assert AllStrings(items) ==>
        seq(|items|, i requires 0 <= i < |items| => ElementText(items[i]))
        == seq(|items|, i requires 0 <= i < |items| => items[i].s);
      Str(JoinWith(seq(|items|, i requires 0 <= i < |items| => ElementText(items[i])), ", "))
    else skills
  }

  /** The five properties of a stored candidate the grading prompt shows. */
  function PromptView(c: Record): (r: Record)
    ensures r.Keys == {"name", "email", "summary", "experience", "skills"}
    ensures forall k :: k in r && k != "skills" ==> r[k] == Get(c, k)
    ensures r["skills"] == SkillsText(Get(c, "skills"))
  {
    map[
      "name" := Get(c, "name"),
      "email" := Get(c, "email"),
      "summary" := Get(c, "summary"),
      "experience" := Get(c, "experience"),
      "skills" := SkillsText(Get(c, "skills"))]
  }

  /** The candidate views listed in the grading prompt, one per stored
      candidate, in store order. */
  function CandidateViews(cands: seq<Record>): (r: seq<Record>)
    ensures |r| == |cands|
    ensures forall i :: 0 <= i < |r| ==> r[i].Keys == {"name", "email", "summary", "experience", "skills"}
    ensures forall i :: 0 <= i < |r| ==> r[i]["email"] == Get(cands[i], "email")
    ensures forall i :: 0 <= i < |r| ==> r[i] == PromptView(cands[i])
  {
    seq(|cands|, i requires 0 <= i < |cands| => PromptView(cands[i]))
  }

  /** What a grading prompt is built from besides its fixed text: the search
      criteria, the number of entries asked for, and the candidate views. */
  datatype Criteria = Query(query: Value) | Filters(filters: Value) | JobDescription(description: Value)
  datatype GradingRequest = GradingRequest(criteria: Criteria, top: int, views: seq<Record>)

  /** The language model as the handlers see it: a grading prompt in, an
      outcome out. */
  type Grader = GradingRequest -> Outcome<string>

  // ---------------------------------------------------------------------
  // Sorting by score.

  /** Scores never increase along the sequence. */
  predicate NonIncreasing(s: seq<Grade>) {
    forall i, j :: 0 <= i < j < |s| ==> s[i].score >= s[j].score
  }

  /** The entries with score `v`, in their order in `s`. */
  function WithScore(s: seq<Grade>, v: int): seq<Grade>
    decreases |s|
  {
    if |s| == 0 then []
    else if s[0].score == v then [s[0]] + WithScore(s[1..], v)
    else WithScore(s[1..], v)
  }

  /** Puts `g` in front of the first entry of `sorted` with a strictly lower
      score, so that it follows every entry with an equal score. */
  function InsertByScore(g: Grade, sorted: seq<Grade>): (r: seq<Grade>)
    ensures |r| == |sorted| + 1
    ensures r[0] == g || (|sorted| > 0 && r[0] == sorted[0])
    ensures multiset(r) == multiset(sorted) + multiset{g}
    ensures NonIncreasing(sorted) ==> NonIncreasing(r)
    decreases |sorted|
  {
    if |sorted| == 0 then [g]
    else if sorted[0].score < g.score then [g] + sorted
    else
      assert sorted == [sorted[0]] + sorted[1..];
      [sorted[0]] + InsertByScore(g, sorted[1..])
  }

  /** `gradedCandidates.sort((a, b) => b.score - a.score)`: a stable sort
      into non-increasing score order. */
  function SortByScore(s: seq<Grade>): (r: seq<Grade>)
    ensures multiset(r) == multiset(s)
    ensures NonIncreasing(r)
    decreases |s|
  {
    if |s| == 0 then []
    else
      assert s == s[..|s| - 1] + [s[|s| - 1]];
      InsertByScore(s[|s| - 1], SortByScore(s[..|s| - 1]))
  }

  // ---------------------------------------------------------------------
  // The cut to `limit`.

  /** The end index `slice(0, limit)` uses: a negative limit counts back from
      the end of the array. */
  function SliceEnd(len: nat, limit: int): nat {
    if limit < 0 then (if len + limit < 0 then 0 else len + limit)
    else if limit < len then limit
    else len
  }

  /** `graded.slice(0, limit)`. */
  function TakeTop(s: seq<Grade>, limit: int): (r: seq<Grade>)
    ensures r <= s
    ensures 0 <= limit ==> |r| == (if limit < |s| then limit else |s|)
    ensures limit < 0 ==> |r| == (if |s| + limit < 0 then 0 else |s| + limit)
  {
    s[..SliceEnd(|s|, limit)]
  }

  /** The graded entries a handler looks up: all of them sorted by score, cut
      to `cut` when it is given. */
  function Kept(items: seq<Grade>, cut: Option<int>): (r: seq<Grade>)
    ensures NonIncreasing(r)
    ensures cut.None? ==> multiset(r) == multiset(items)
    ensures cut.Some? ==> r <= SortByScore(items)
    ensures cut.Some? && 0 <= cut.value ==> |r| <= cut.value
  {
    var sorted := SortByScore(items);
    if cut.Some? then
      var r := TakeTop(sorted, cut.value);
      assert forall i :: 0 <= i < |r| ==> r[i] == sorted[i];
      r
    else sorted
  }

  // ---------------------------------------------------------------------
  // The join with the stored candidates.

  /** What `getCandidateByEmailOrPhone` comes back with for an identifier:
      the stored properties, null, or a thrown error. */
  type Lookup = Value -> Db<Option<Record>>

  /** `{ ...candidateWithoutEmbedding, score, explanation }`. */
  function Annotate(rec: Record, g: Grade): (r: Record)
    ensures "embedding" !in r
    ensures "score" in r && r["score"] == Num(g.score)
    ensures "explanation" in r && r["explanation"] == g.explanation
    ensures forall k :: k != "embedding" && k != "score" && k != "explanation" ==>
      (k in r <==> k in rec) && (k in rec ==> r[k] == rec[k])
  {
    (rec - {"embedding"})["score" := Num(g.score)]["explanation" := g.explanation]
  }

  predicate Found(lookup: Lookup, g: Grade) {
    lookup(g.email).Fetched? && lookup(g.email).value.Some?
  }

  predicate Failed(lookup: Lookup, g: Grade) {
    lookup(g.email).DbFailure?
  }

  /** The loop over the graded entries: look each one up in turn, keep those
      found, stop at the first lookup that throws. */
  function LookupJoin(grades: seq<Grade>, lookup: Lookup): (r: Db<seq<Record>>)
    ensures r.DbFailure? <==> exists i :: 0 <= i < |grades| && Failed(lookup, grades[i])
    ensures r.Fetched? ==> |r.value| <= |grades|
    ensures r.Fetched? && (forall i :: 0 <= i < |grades| ==> Found(lookup, grades[i])) ==>
      |r.value| == |grades|
    decreases |grades|
  {
    if |grades| == 0 then Fetched([])
    else
      var g := grades[0];
      assert forall i :: 1 <= i < |grades| ==> grades[i] == grades[1..][i - 1];
      match lookup(g.email)
      case DbFailure => DbFailure
      case Fetched(None) => LookupJoin(grades[1..], lookup)
      case Fetched(Some(rec)) =>
        match LookupJoin(grades[1..], lookup)
        case DbFailure => DbFailure
        case Fetched(rest) => Fetched([Annotate(rec, g)] + rest)
  }

  /** The indexes, from `i` on, of the graded entries the lookup finds. */
  function FoundFrom(grades: seq<Grade>, lookup: Lookup, i: nat): (r: seq<nat>)
    requires i <= |grades|
    ensures forall k :: 0 <= k < |r| ==> i <= r[k] < |grades| && Found(lookup, grades[r[k]])
    ensures forall k, l :: 0 <= k < l < |r| ==> r[k] < r[l]
    ensures forall j :: i <= j < |grades| && Found(lookup, grades[j]) ==> j in r
    decreases |grades| - i
  {
    if i == |grades| then []
    else if Found(lookup, grades[i]) then [i] + FoundFrom(grades, lookup, i + 1)
    else FoundFrom(grades, lookup, i + 1)
  }

  /** The stored record the lookup finds for a graded entry. */
  function FoundRecord(lookup: Lookup, g: Grade): Record
    requires Found(lookup, g)
  {
    lookup(g.email).value.value
  }

  // ---------------------------------------------------------------------
  // The grading reply, end to end.

  /** What both handlers do with the model's outcome once the candidate
      store was read and was not empty. `cut` is the `limit` the entries are
      cut to, or None where the handler does not cut. */
  function HandleGrading(outcome: Outcome<string>, parse: string -> Option<Graded>, lookup: Lookup, cut: Option<int>): (r: Response)
    ensures outcome.RateLimited? ==> r == Response(429, RateLimit("Rate limit reached", outcome.retryAfter))
    ensures outcome.Err? ==> r == InternalError
    ensures outcome.Ok? && parse(CleanReply(outcome.value)).None? ==>
      r == Response(500, Message("Failed to parse LLM response."))
    ensures outcome.Ok? && parse(CleanReply(outcome.value)) == Some(NotAnArray) ==> r == Candidates([])
    ensures outcome.Ok? && parse(CleanReply(outcome.value)) == Some(Grades([])) ==> r == Candidates([])
    ensures outcome.Ok? && parse(CleanReply(outcome.value)).Some? && parse(CleanReply(outcome.value)).value.Grades? ==>
      var items := parse(CleanReply(outcome.value)).value.items;
      |items| > 0 && LookupJoin(Kept(items, cut), lookup).DbFailure? ==> r == InternalError
    ensures outcome.Ok? && parse(CleanReply(outcome.value)).Some? && parse(CleanReply(outcome.value)).value.Grades? ==>
      var items := parse(CleanReply(outcome.value)).value.items;
      |items| > 0 && LookupJoin(Kept(items, cut), lookup).Fetched? ==>
        r == Candidates(LookupJoin(Kept(items, cut), lookup).value)
    ensures r.status == 200 || r.status == 429 || r.status == 500
  {
    match outcome
    case RateLimited(retryAfter) => Response(429, RateLimit("Rate limit reached", retryAfter))
    case Err(_) => InternalError
    case Ok(output) =>
      match parse(CleanReply(output))
      case None => Response(500, Message("Failed to parse LLM response."))
      case Some(NotAnArray) => Candidates([])
      case Some(Grades(items)) =>
        if |items| == 0 then Candidates([])
        else
          match LookupJoin(Kept(items, cut), lookup)
          case DbFailure => InternalError
          case Fetched(entries) => Candidates(entries)
  }
}

=== FILE: ranking_properties.dfy ===
/**
 Properties of the ranking step: the sort is the one stable sort by
 non-increasing score, and the join keeps exactly the entries the lookup
 finds, in order, so the handlers' replies are ordered by score.
 */
module RankingProperties {
  import opened Common
  import opened Text
  import opened Ranking

  // ---------------------------------------------------------------------
  // Stability.

  lemma {:induction false} WithScoreAppend(a: seq<Grade>, b: seq<Grade>, v: int)
    ensures WithScore(a + b, v) == WithScore(a, v) + WithScore(b, v)
    decreases |a|
  {
    if |a| > 0 {
      assert (a + b)[1..] == a[1..] + b;
      WithScoreAppend(a[1..], b, v);
    } else {
      assert a + b == b;
    }
  }

  lemma {:induction false} WithScoreMembers(s: seq<Grade>, v: int)
    ensures forall x :: x in WithScore(s, v) ==> x in s && x.score == v
    decreases |s|
  {
    if |s| > 0 {
      WithScoreMembers(s[1..], v);
    }
  }

  /** Entries placed ahead of `g` by the insertion have a score no lower than
      `g`'s, and those after it a lower one. */
  lemma {:induction false} InsertWithScore(g: Grade, t: seq<Grade>, v: int)
    requires NonIncreasing(t)
    ensures WithScore(InsertByScore(g, t), v) ==
      if g.score == v then WithScore(t, v) + [g] else WithScore(t, v)
    decreases |t|
  {
    if |t| == 0 {
    } else if t[0].score < g.score {
      // every entry of t scores below g, so none has g's score
      if g.score == v {
        WithScoreMembers(t, v);
        NoneWithScore(t, v);
      }
    } else {
      InsertWithScore(g, t[1..], v);
      assert InsertByScore(g, t) == [t[0]] + InsertByScore(g, t[1..]);
    }
  }

  lemma NoneWithScore(t: seq<Grade>, v: int)
    requires |t| > 0 && NonIncreasing(t) && t[0].score < v
    requires forall x :: x in WithScore(t, v) ==> x in t && x.score == v
    ensures WithScore(t, v) == []
  {
  }

  /** The sort keeps the entries of each score in their original order:
      `Array.prototype.sort` is stable. */
  lemma {:induction false} SortIsStable(s: seq<Grade>, v: int)
    ensures WithScore(SortByScore(s), v) == WithScore(s, v)
    decreases |s|
  {
    if |s| > 0 {
      var init := s[..|s| - 1];
      var last := s[|s| - 1];
      assert s == init + [last];
      assert SortByScore(s) == InsertByScore(last, SortByScore(init));
      SortIsStable(init, v);
      InsertWithScore(last, SortByScore(init), v);
      WithScoreAppend(init, [last], v);
      assert WithScore([last], v) == if last.score == v then [last] else [];
    }
  }

  // ---------------------------------------------------------------------
  // Uniqueness: ordered by score and stable determine the result.

  lemma WithScoreHead(s: seq<Grade>)
    requires |s| > 0
    ensures WithScore(s, s[0].score) == [s[0]] + WithScore(s[1..], s[0].score)
  {
  }

  lemma NonIncreasingTail(s: seq<Grade>)
    requires |s| > 0 && NonIncreasing(s)
    ensures NonIncreasing(s[1..])
  {
  }

  /** The head of a non-empty sequence ordered by score has the top score. */
  lemma HeadHasTopScore(a: seq<Grade>, b: seq<Grade>)
    requires |a| > 0 && |b| > 0 && NonIncreasing(b)
    requires WithScore(a, a[0].score) == WithScore(b, a[0].score)
    ensures b[0].score >= a[0].score
  {
    WithScoreHead(a);
    WithScoreMembers(b, a[0].score);
    var x := WithScore(b, a[0].score)[0];
    assert x in WithScore(b, a[0].score);
    var k :| 0 <= k < |b| && b[k] == x;
    assert b[0].score >= b[k].score;
  }

  lemma EmptyFilters(b: seq<Grade>)
    requires forall v :: WithScore(b, v) == []
    ensures b == []
  {
    if |b| > 0 {
      WithScoreHead(b);
      assert WithScore(b, b[0].score) != [];
    }
  }

  /** Two sequences ordered by score that agree on the entries of every
      score, in order, are equal. */
  lemma {:induction false} OrderedAndStableIsUnique(a: seq<Grade>, b: seq<Grade>)
    requires NonIncreasing(a) && NonIncreasing(b)
    requires forall v :: WithScore(a, v) == WithScore(b, v)
    ensures a == b
    decreases |a|
  {
    if |a| == 0 || |b| == 0 {
      EmptyFilters(a);
      EmptyFilters(b);
    } else {
      HeadHasTopScore(a, b);
      assert WithScore(b, b[0].score) == WithScore(a, b[0].score);
      HeadHasTopScore(b, a);
      var m := a[0].score;
      assert b[0].score == m;
      WithScoreHead(a);
      WithScoreHead(b);
      assert WithScore(a, m) == WithScore(b, m);
      assert WithScore(a, m)[0] == a[0];
      assert WithScore(b, m)[0] == b[0];
      forall v
        ensures WithScore(a[1..], v) == WithScore(b[1..], v)
      {
        assert WithScore(a, v) == WithScore(b, v);
        if v == m {
          assert [a[0]] + WithScore(a[1..], v) == [b[0]] + WithScore(b[1..], v);
          assert WithScore(a[1..], v) == ([a[0]] + WithScore(a[1..], v))[1..];
        }
      }
      NonIncreasingTail(a);
      NonIncreasingTail(b);
      OrderedAndStableIsUnique(a[1..], b[1..]);
      assert a == [a[0]] + a[1..] && b == [b[0]] + b[1..];
    }
  }

  /** Any sequence ordered by score that keeps each score's entries in
      their original order is the result of the sort. */
  lemma SortIsTheStableSort(s: seq<Grade>, r: seq<Grade>)
    requires NonIncreasing(r)
    requires forall v :: WithScore(r, v) == WithScore(s, v)
    ensures r == SortByScore(s)
  {
    forall v
      ensures WithScore(r, v) == WithScore(SortByScore(s), v)
    {
      SortIsStable(s, v);
    }
    OrderedAndStableIsUnique(r, SortByScore(s));
  }

  // ---------------------------------------------------------------------
  // The join.

  /** The join over the entries from `i` on yields one annotated record per
      entry the lookup finds, in the order of the entries. */
  lemma {:induction false} JoinFrom(grades: seq<Grade>, lookup: Lookup, i: nat)
    requires i <= |grades|
    requires LookupJoin(grades[i..], lookup).Fetched?
    ensures var rs := LookupJoin(grades[i..], lookup).value;
      var idx := FoundFrom(grades, lookup, i);
      && |rs| == |idx|
      && forall k :: 0 <= k < |rs| ==> rs[k] == Annotate(FoundRecord(lookup, grades[idx[k]]), grades[idx[k]])
    decreases |grades| - i
  {
    if i < |grades| {
      var g := grades[i];
      assert grades[i..][0] == g;
      assert grades[i..][1..] == grades[i + 1..];
      var rest := LookupJoin(grades[i + 1..], lookup);
      assert rest.Fetched?;
      JoinFrom(grades, lookup, i + 1);
      if Found(lookup, g) {
        assert LookupJoin(grades[i..], lookup).value == [Annotate(FoundRecord(lookup, g), g)] + rest.value;
        assert FoundFrom(grades, lookup, i) == [i] + FoundFrom(grades, lookup, i + 1);
      } else {
        assert LookupJoin(grades[i..], lookup) == rest;
        assert FoundFrom(grades, lookup, i) == FoundFrom(grades, lookup, i + 1);
      }
    }
  }

  /** The join keeps exactly the entries the lookup finds, in order. */
  lemma JoinKeepsFoundEntries(grades: seq<Grade>, lookup: Lookup)
    requires LookupJoin(grades, lookup).Fetched?
    ensures var rs := LookupJoin(grades, lookup).value;
      var idx := FoundFrom(grades, lookup, 0);
      && |rs| == |idx|
      && (forall k, l :: 0 <= k < l < |idx| ==> idx[k] < idx[l])
      && (forall j :: 0 <= j < |grades| && Found(lookup, grades[j]) ==> j in idx)
      && forall k :: 0 <= k < |rs| ==> rs[k] == Annotate(FoundRecord(lookup, grades[idx[k]]), grades[idx[k]])
  {
    assert grades[0..] == grades;
    JoinFrom(grades, lookup, 0);
  }

  /** The score a joined record carries. */
  function RecordScore(r: Record): int
    requires "score" in r && r["score"].Num?
  {
    r["score"].n
  }

  /** Joined records are in the order of their entries, so a join of entries
      ordered by score is ordered by score. */
  lemma JoinKeepsScoreOrder(grades: seq<Grade>, lookup: Lookup)
    requires NonIncreasing(grades)
    requires LookupJoin(grades, lookup).Fetched?
    ensures var rs := LookupJoin(grades, lookup).value;
      && (forall k :: 0 <= k < |rs| ==> "score" in rs[k] && rs[k]["score"].Num? && "embedding" !in rs[k])
      && forall k, l :: 0 <= k < l < |rs| ==> RecordScore(rs[k]) >= RecordScore(rs[l])
  {
    JoinKeepsFoundEntries(grades, lookup);
  }

  // ---------------------------------------------------------------------
  // End to end.

  /** A 200 reply to a parsed, non-empty grading array lists stored records
      without their embedding, ordered by score, at most `cut` of them. */
  lemma GradingReplyIsOrderedAndCut(outcome: Outcome<string>, parse: string -> Option<Graded>, lookup: Lookup, cut: Option<int>)
    requires HandleGrading(outcome, parse, lookup, cut).status == 200
    ensures var r := HandleGrading(outcome, parse, lookup, cut);
      && r.body.CandidateList?
      && (forall k :: 0 <= k < |r.body.items| ==> "score" in r.body.items[k] && r.body.items[k]["score"].Num? && "embedding" !in r.body.items[k])
      && (forall k, l :: 0 <= k < l < |r.body.items| ==> RecordScore(r.body.items[k]) >= RecordScore(r.body.items[l]))
      && (cut.Some? && 0 <= cut.value ==> |r.body.items| <= cut.value)
  {
    if outcome.Ok? {
      var parsed := parse(CleanReply(outcome.value));
      if parsed.Some? && parsed.value.Grades? && |parsed.value.items| > 0 {
        JoinKeepsScoreOrder(Kept(parsed.value.items, cut), lookup);
      }
    }
  }

  /** The join lists exactly the entries the lookup finds, each as its
      stored record annotated with the entry's score and explanation. */
  lemma JoinListsFound(grades: seq<Grade>, lookup: Lookup)
    requires LookupJoin(grades, lookup).Fetched?
    ensures var rs := LookupJoin(grades, lookup).value;
      && (forall g :: g in grades && Found(lookup, g) ==> Annotate(FoundRecord(lookup, g), g) in rs)
      && (forall e :: e in rs ==>
            exists g :: g in grades && Found(lookup, g) && e == Annotate(FoundRecord(lookup, g), g))
  {
    var rs := LookupJoin(grades, lookup).value;
    JoinKeepsFoundEntries(grades, lookup);
    var idx := FoundFrom(grades, lookup, 0);
    forall g | g in grades && Found(lookup, g)
      ensures Annotate(FoundRecord(lookup, g), g) in rs
    {
      var j :| 0 <= j < |grades| && grades[j] == g;
      assert j in idx;
      var k :| 0 <= k < |idx| && idx[k] == j;
      assert rs[k] == Annotate(FoundRecord(lookup, g), g);
    }
    forall e | e in rs
      ensures exists g :: g in grades && Found(lookup, g) && e == Annotate(FoundRecord(lookup, g), g)
    {
      var k :| 0 <= k < |rs| && rs[k] == e;
      var g := grades[idx[k]];
      assert g in grades && Found(lookup, g);
    }
  }

  /** A 200 reply to a parsed, non-empty grading array lists exactly the
      entries kept for lookup that the lookup finds. */
  lemma GradingReplyListsFound(outcome: Outcome<string>, parse: string -> Option<Graded>, lookup: Lookup, cut: Option<int>, items: seq<Grade>)
    requires outcome.Ok? && parse(CleanReply(outcome.value)) == Some(Grades(items)) && |items| > 0
    requires HandleGrading(outcome, parse, lookup, cut).status == 200
    ensures var r := HandleGrading(outcome, parse, lookup, cut);
      && r.body.CandidateList?
      && LookupJoin(Kept(items, cut), lookup) == Fetched(r.body.items)
  {
  }
  /** Without a cut, the entries looked up are exactly the graded entries,
      as many as there are. */
  lemma UncutKeepsEveryEntry(items: seq<Grade>)
    ensures |Kept(items, None)| == |items|
    ensures forall g :: g in Kept(items, None) <==> g in items
  {
    var kept := Kept(items, None);
    assert |multiset(kept)| == |multiset(items)|;
    forall g ensures g in items <==> g in kept {
      assert g in items <==> g in multiset(items);
      assert g in kept <==> g in multiset(kept);
    }
  }

  /** Without a cut, a join in which the lookup finds every graded entry
      has one record per entry. */
  lemma UncutJoinListsAll(items: seq<Grade>, lookup: Lookup)
    requires LookupJoin(Kept(items, None), lookup).Fetched?
    requires forall i :: 0 <= i < |items| ==> Found(lookup, items[i])
    ensures |LookupJoin(Kept(items, None), lookup).value| == |items|
  {
    var kept := Kept(items, None);
    UncutKeepsEveryEntry(items);
    forall i | 0 <= i < |kept|
      ensures Found(lookup, kept[i])
    {
      assert kept[i] in items;
    }
  }
}

=== FILE: search.dfy ===
/**
 `searchCandidatesHandler` of src/controllers/searchController.js: a search
 by natural-language query or by filters, graded by the language model,
 sorted by score, cut to `limit` and joined with the stored candidates.
 */
module Search {
  import opened Common
  import opened Text
  import opened Ranking
  import opened RankingProperties

  /** The request body fields the handler reads; `limit` is None when the
      body leaves it out. */
  datatype SearchRequest = SearchRequest(query: Value, filters: Value, limit: Option<int>)

  /** The collaborators: the candidate store as `getAllCandidates` reads it,
      the language model, JSON.parse of the cleaned reply, and the lookup by
      email or phone. */
  datatype Services = Services(store: Db<seq<Record>>, grade: Grader, parse: string -> Option<Graded>, lookup: Lookup)

  const NoParameters := "No search parameters provided."

  /** The criteria line of the prompt: the query when it is truthy, the
      filters otherwise. */
  function SearchCriteria(req: SearchRequest): Criteria {
    if Truthy(req.query) then Query(req.query) else Filters(req.filters)
  }

  predicate HasParameters(req: SearchRequest) {
    Truthy(req.query) || Truthy(req.filters)
  }

  /** The handler's reply. */
  function SearchCandidates(req: SearchRequest, env: Services): (r: Response)
    ensures r.status == 400 <==> !HasParameters(req)
    ensures !HasParameters(req) ==> r == Response(400, Message(NoParameters))
    ensures HasParameters(req) && env.store.DbFailure? ==> r == InternalError
    ensures HasParameters(req) && env.store == Fetched([]) ==> r == Candidates([])
    ensures HasParameters(req) && env.store.Fetched? && |env.store.value| > 0 ==>
      var outcome := env.grade(GradingRequest(SearchCriteria(req), LimitOrDefault(req.limit), CandidateViews(env.store.value)));
      && (outcome.RateLimited? ==> r == Response(429, RateLimit("Rate limit reached", outcome.retryAfter)))
      && (outcome.Err? ==> r == InternalError)
      && (outcome.Ok? && env.parse(CleanReply(outcome.value)).None? ==> r == Response(500, Message("Failed to parse LLM response.")))
      && r == HandleGrading(outcome, env.parse, env.lookup, Some(LimitOrDefault(req.limit)))
    ensures r.status == 200 || r.status == 400 || r.status == 429 || r.status == 500
  {
    if !HasParameters(req) then Response(400, Message(NoParameters))
    else
      match env.store
      case DbFailure => InternalError
      case Fetched(cands) =>
        if |cands| == 0 then Candidates([])
        else
          var outcome := env.grade(GradingRequest(SearchCriteria(req), LimitOrDefault(req.limit), CandidateViews(cands)));
          HandleGrading(outcome, env.parse, env.lookup, Some(LimitOrDefault(req.limit)))
  }

  /** Without a query or filters the reply is the same whatever the store,
      the model and the lookup would give: none of them is consulted. */
  lemma NoParametersConsultsNothing(req: SearchRequest, a: Services, b: Services)
    requires !HasParameters(req)
    ensures SearchCandidates(req, a) == SearchCandidates(req, b)
  {
  }

  /** A successful search lists stored records without their embedding, in
      non-increasing score order, and no more than `limit` of them. */
  lemma SearchReplyIsRankedAndCut(req: SearchRequest, env: Services)
    requires SearchCandidates(req, env).status == 200
    ensures var r := SearchCandidates(req, env);
      && r.body.CandidateList?
      && (forall k :: 0 <= k < |r.body.items| ==> "score" in r.body.items[k] && r.body.items[k]["score"].Num? && "embedding" !in r.body.items[k])
      && (forall k, l :: 0 <= k < l < |r.body.items| ==> RecordScore(r.body.items[k]) >= RecordScore(r.body.items[l]))
      && (0 <= LimitOrDefault(req.limit) ==> |r.body.items| <= LimitOrDefault(req.limit))
  {
    if env.store.Fetched? && |env.store.value| > 0 {
      var outcome := env.grade(GradingRequest(SearchCriteria(req), LimitOrDefault(req.limit), CandidateViews(env.store.value)));
      GradingReplyIsOrderedAndCut(outcome, env.parse, env.lookup, Some(LimitOrDefault(req.limit)));
    }
  }

  /** A successful search over a non-empty grading lists exactly the entries
      among the top `limit` by score that the lookup finds, each as its stored
      record with the entry's score and explanation. */
  lemma SearchListsTopFound(req: SearchRequest, env: Services, items: seq<Grade>)
    requires HasParameters(req) && env.store.Fetched? && |env.store.value| > 0
    requires var outcome := env.grade(GradingRequest(SearchCriteria(req), LimitOrDefault(req.limit), CandidateViews(env.store.value)));
      outcome.Ok? && env.parse(CleanReply(outcome.value)) == Some(Grades(items)) && |items| > 0
    requires SearchCandidates(req, env).status == 200
    ensures var rs := SearchCandidates(req, env).body.items;
      var top := TakeTop(SortByScore(items), LimitOrDefault(req.limit));
      && (forall g :: g in top && Found(env.lookup, g) ==> Annotate(FoundRecord(env.lookup, g), g) in rs)
      && (forall e :: e in rs ==>
            exists g :: g in top && Found(env.lookup, g) && e == Annotate(FoundRecord(env.lookup, g), g))
  {
    var outcome := env.grade(GradingRequest(SearchCriteria(req), LimitOrDefault(req.limit), CandidateViews(env.store.value)));
    var top := Kept(items, Some(LimitOrDefault(req.limit)));
    assert top == TakeTop(SortByScore(items), LimitOrDefault(req.limit));
    assert SearchCandidates(req, env) == HandleGrading(outcome, env.parse, env.lookup, Some(LimitOrDefault(req.limit)));
    GradingReplyListsFound(outcome, env.parse, env.lookup, Some(LimitOrDefault(req.limit)), items);
    JoinListsFound(top, env.lookup);
  }

  // ---------------------------------------------------------------------
  // As written against the model service.

  /** The handler as written against `getLLMResponse` of
      src/services/azureOpenAIService.js, which resolves to the reply text
      itself and rejects on every failure (`reply` is None then).
      Destructuring `content` and `error` from a string gives `undefined`,
      so no error is seen and `llmOutput.replace` throws inside the parse
      block. */
  function SearchAsWritten(req: SearchRequest, store: Db<seq<Record>>, reply: GradingRequest -> Option<string>, env: Services): (r: Response)
    ensures !HasParameters(req) ==> r == Response(400, Message(NoParameters))
    ensures HasParameters(req) && store.DbFailure? ==> r == InternalError
  {
    if !HasParameters(req) then Response(400, Message(NoParameters))
    else
      match store
      case DbFailure => InternalError
      case Fetched(cands) =>
        if |cands| == 0 then Candidates([])
        else
          match reply(GradingRequest(SearchCriteria(req), LimitOrDefault(req.limit), CandidateViews(cands)))
          case None => InternalError
          case Some(text) =>
            var content := Member(Str(text), "content");
            var error := Member(Str(text), "error");
            if Truthy(error) then
              if error == Str("Rate limited") then Response(429, RateLimit("Rate limit reached", Member(Str(text), "retryAfter")))
              else InternalError
            else if !content.Str? then Response(500, Message("Failed to parse LLM response."))
            else HandleGrading(Ok(content.s), env.parse, env.lookup, Some(LimitOrDefault(req.limit)))
  }

  /** As written, a search that reaches the model never lists a candidate:
      whatever the model replies, the reply is the parse failure. */
  lemma SearchAsWrittenNeverRanks(req: SearchRequest, cands: seq<Record>, reply: GradingRequest -> Option<string>, env: Services)
    requires HasParameters(req) && |cands| > 0
    requires reply(GradingRequest(SearchCriteria(req), LimitOrDefault(req.limit), CandidateViews(cands))).Some?
    ensures SearchAsWritten(req, Fetched(cands), reply, env) == Response(500, Message("Failed to parse LLM response."))
  {
  }
}

=== FILE: text.dfy ===
/**
 String operations the controllers apply to language-model output and to
 candidate skills: the global replace of markdown JSON fences, JavaScript's
 String.prototype.trim, and Array.prototype.join.
 */
module Text {

  const OpenFence := "```json\n"
  const CloseFence := "\n```"

  /** "```json" and a line feed start at index `i` of `s`. */
  predicate OpenFenceAt(s: string, i: nat) {
    && i + 8 <= |s| && s[i] == '`' && s[i + 1] == '`' && s[i + 2] == '`'
    && s[i + 3] == 'j' && s[i + 4] == 's' && s[i + 5] == 'o' && s[i + 6] == 'n'
    && s[i + 7] == '\n'
  }

  /** A line feed and "```" start at index `i` of `s`. */
  predicate CloseFenceAt(s: string, i: nat) {
    i + 4 <= |s| && s[i] == '\n' && s[i + 1] == '`' && s[i + 2] == '`' && s[i + 3] == '`'
  }

  /** The scan of `s.replace(/```json\n|\n```/g, '')` from index `i` on: the
      regular expression is tried at each position from left to right, the
      first alternative before the second, and scanning resumes after each
      removed match. Text that the removal brings together is not scanned
      again. */
  function StripFencesFrom(s: string, i: nat): (r: string)
    requires i <= |s|
    decreases |s| - i
  {
    if i == |s| then ""
    else if OpenFenceAt(s, i) then StripFencesFrom(s, i + 8)
    else if CloseFenceAt(s, i) then StripFencesFrom(s, i + 4)
    else [s[i]] + StripFencesFrom(s, i + 1)
  }

  /** Removal of every markdown JSON fence from a model reply. */
  function StripFences(s: string): string {
    StripFencesFrom(s, 0)
  }

  predicate NoBacktick(s: string) {
    forall i :: 0 <= i < |s| ==> s[i] != '`'
  }

  /** A stretch of `s` without backticks, not followed by one, is copied
      unchanged. */
  lemma {:induction false} StripFencesCopiesPlainRun(s: string, i: nat, n: nat)
    requires i <= n <= |s|
    requires forall k :: i <= k < n ==> s[k] != '`'
    requires n == |s| || s[n] != '`'
    ensures StripFencesFrom(s, i) == s[i..n] + StripFencesFrom(s, n)
    decreases n - i
  {
    if i < n {
      StripFencesCopiesOne(s, i);
      StripFencesCopiesPlainRun(s, i + 1, n);
      assert s[i..n] == [s[i]] + s[i + 1..n];
    }
  }

  /** A character that is not a backtick, not followed by one, is copied. */
  lemma StripFencesCopiesOne(s: string, i: nat)
    requires i < |s| && s[i] != '`'
    requires i + 1 == |s| || s[i + 1] != '`'
    ensures StripFencesFrom(s, i) == [s[i]] + StripFencesFrom(s, i + 1)
  {
  }

  /** Output without backticks is left as it is. */
  lemma StripFencesIdentity(s: string)
    requires NoBacktick(s)
    ensures StripFences(s) == s
  {
    StripFencesCopiesPlainRun(s, 0, |s|);
  }

  /** A reply wrapped in a JSON code fence is unwrapped to exactly its body,
      when the body itself contains no backtick. */
  lemma StripFencesUnwraps(body: string)
    requires NoBacktick(body)
    ensures StripFences(OpenFence + body + CloseFence) == body
  {
    var s := OpenFence + body + CloseFence;
    var n := 8 + |body|;
    assert OpenFenceAt(s, 0);
    assert forall k :: 8 <= k < n ==> s[k] == body[k - 8];
    assert s[n] == '\n';
    StripFencesCopiesPlainRun(s, 8, n);
    assert s[8..n] == body;
    assert CloseFenceAt(s, n);
    assert StripFencesFrom(s, n) == StripFencesFrom(s, n + 4) == "";
  }

  /** The removal is a single pass: a fence that only forms once another
      fence has been cut out of the middle of it survives. */
  lemma StripFencesSinglePass()
    ensures StripFences("```js" + OpenFence + "on\n") == OpenFence
  {
    var s := "```js" + OpenFence + "on\n";
    assert OpenFenceAt(s, 5);
    assert StripFencesFrom(s, 5) == StripFencesFrom(s, 13);
    StripFencesCopiesPlainRun(s, 13, |s|);
    assert s[13..] == "on\n";
    assert !OpenFenceAt(s, 0) && !OpenFenceAt(s, 1) && !OpenFenceAt(s, 2);
    assert StripFencesFrom(s, 4) == "s" + StripFencesFrom(s, 5);
    assert StripFencesFrom(s, 3) == "js" + StripFencesFrom(s, 5);
    assert StripFencesFrom(s, 2) == "`js" + StripFencesFrom(s, 5);
    assert StripFencesFrom(s, 1) == "``js" + StripFencesFrom(s, 5);
    assert StripFencesFrom(s, 0) == "```js" + StripFencesFrom(s, 5);
  }

  /** The characters String.prototype.trim removes: the ECMAScript WhiteSpace
      and LineTerminator code points. */
  predicate IsJsWhitespace(c: char) {
    var n := c as int;
    || n == 0x09 || n == 0x0A || n == 0x0B || n == 0x0C || n == 0x0D
    || n == 0x20 || n == 0xA0 || n == 0x1680 || (0x2000 <= n <= 0x200A)
    || n == 0x2028 || n == 0x2029 || n == 0x202F || n == 0x205F
    || n == 0x3000 || n == 0xFEFF
  }

  function TrimStart(s: string): (r: string)
    ensures |r| <= |s| && r == s[|s| - |r|..]
    ensures forall i :: 0 <= i < |s| - |r| ==> IsJsWhitespace(s[i])
    ensures r == [] || !IsJsWhitespace(r[0])
    decreases |s|
  {
    if |s| > 0 && IsJsWhitespace(s[0]) then TrimStart(s[1..]) else s
  }

  function TrimEnd(s: string): (r: string)
    ensures r <= s
    ensures forall i :: |r| <= i < |s| ==> IsJsWhitespace(s[i])
    ensures r == [] || !IsJsWhitespace(r[|r| - 1])
    decreases |s|
  {
    if |s| > 0 && IsJsWhitespace(s[|s| - 1]) then TrimEnd(s[..|s| - 1]) else s
  }

  /** `r` is `s` less a run of whitespace of length `i` at the front and
      whatever follows `r`, all of it whitespace. */
  ghost predicate TrimmedAt(s: string, i: int, r: string) {
    && 0 <= i <= |s| - |r|
    && r == s[i..i + |r|]
    && (forall k :: 0 <= k < i ==> IsJsWhitespace(s[k]))
    && (forall k :: i + |r| <= k < |s| ==> IsJsWhitespace(s[k]))
  }

  /** A prefix `r` of a suffix `t` of `s`, with whitespace before `t` and
      after `r`, is `s` trimmed at the start of `t`. */
  lemma TrimmedAtSuffix(s: string, t: string, r: string)
    requires |t| <= |s| && t == s[|s| - |t|..]
    requires forall k :: 0 <= k < |s| - |t| ==> IsJsWhitespace(s[k])
    requires r <= t
    requires forall k :: |r| <= k < |t| ==> IsJsWhitespace(t[k])
    ensures TrimmedAt(s, |s| - |t|, r)
  {
    var i := |s| - |t|;
    forall k | i + |r| <= k < |s|
      ensures IsJsWhitespace(s[k])
    {
      assert s[k] == t[k - i];
    }
    assert r == t[..|r|];
  }

  /** String.prototype.trim: the infix left after dropping whitespace at both
      ends. */
  function Trim(s: string): (r: string)
    ensures exists i :: TrimmedAt(s, i, r)
    ensures r == [] || (!IsJsWhitespace(r[0]) && !IsJsWhitespace(r[|r| - 1]))
  {
    var t := TrimStart(s);
    var r := TrimEnd(t);
    TrimmedAtSuffix(s, t, r);
    assert r == [] || r[0] == t[0];
    assert TrimmedAt(s, |s| - |t|, r);
    r
  }

  /** Trimming twice is trimming once. */
  lemma TrimIdempotent(s: string)
    ensures Trim(Trim(s)) == Trim(s)
  {
  }

  /** `output.replace(/```json\n|\n```/g, '').trim()`: the text of a model
      reply that the handlers hand to JSON.parse. */
  function CleanReply(output: string): string {
    Trim(StripFences(output))
  }

  /** A reply wrapped in a JSON code fence is parsed from its trimmed body. */
  lemma CleanReplyUnwraps(body: string)
    requires NoBacktick(body)
    ensures CleanReply(OpenFence + body + CloseFence) == Trim(body)
  {
    StripFencesUnwraps(body);
  }

  /** Array.prototype.join over strings. */
  function JoinWith(parts: seq<string>, sep: string): (r: string)
    decreases |parts|
  {
    if |parts| == 0 then ""
    else if |parts| == 1 then parts[0]
    else parts[0] + sep + JoinWith(parts[1..], sep)
  }

  /** Joining a concatenation puts one separator between the two joins. */
  lemma {:induction false} JoinWithAppend(a: seq<string>, b: seq<string>, sep: string)
    requires |a| > 0 && |b| > 0
    ensures JoinWith(a + b, sep) == JoinWith(a, sep) + sep + JoinWith(b, sep)
    decreases |a|
  {
    if |a| == 1 {
      assert (a + b)[1..] == b;
    } else {
      assert (a + b)[1..] == a[1..] + b;
      JoinWithAppend(a[1..], b, sep);
    }
  }

  function DigitChar(d: int): char
    requires 0 <= d < 10
  {
    (('0' as int) + d) as char
  }

  function NatDigits(n: nat): string
    decreases n
  {
    if n < 10 then [DigitChar(n)] else NatDigits(n / 10) + [DigitChar(n % 10)]
  }

  /** Number-to-string conversion for integers written in plain decimal. */
  function IntToString(n: int): string {
    if n < 0 then "-" + NatDigits(-n) else NatDigits(n)
  }
}
